=== FILE: README.md ===
# Kidlingo quiz core in Dafny

This project models the client-side vocabulary quiz of the kidlingo web app. A child picks a
category, and the quiz page builds up to five multiple-choice questions from that category's word
list. Each question asks for a word's translation, and its options are the correct translation plus
up to three other translations from the list, in random order. The question card takes one click,
shows feedback and resets itself after 1500 ms. The quiz page judges the answer:

- for a guest, locally;
- for a signed-in player, with the remote `checkQuizAnswer` call.

The page then counts the point and moves on after 1500 ms. After the last question it reports
`score * 10` points with `completeLesson` (signed-in players only) and shows the result card. That
card gives a rounded percentage, a message and one to three stars.

The modules follow the source files:

| module | file | what it holds |
|---|---|---|
| `Shuffling` | `shuffle.dfy` | the random reordering, as an injected sequence of draws |
| `QuestionSet` | `question_set.dfy` | building the questions from a word list |
| `QuizQuestion` | `quiz_question.dfy` | the question card: click guard, reset, verdict, option colours |
| `QuizGame` | `quiz_game.dfy` | the quiz page: session, answer handler, delayed steps, what the page shows |
| `QuizScreen` | `quiz_screen.dfy` | page and card together, driven by an event stream of clicks, remote replies and timer ticks |
| `QuizResult` | `quiz_result.dfy` | percentage, message and stars of the result card |
| `Wrappers` | `wrappers.dfy` | `Option` |

Nondeterminism and the outside world become inputs:

- **Randomness.** `Math.random` sorting is modelled by `Shuffling.Shuffle` over a sequence of draws. Draw i picks which of the remaining elements goes to position i. Every draw sequence gives a rearrangement of the input, and every rearrangement is reached by some draw sequence.
- **Remote replies.** Replies to `checkQuizAnswer` and `completeLesson` are parameters (`QuizGame`) or events (`QuizScreen`).
- **Timers.** Every `setTimeout` in the core uses the same 1500 ms, so timers fire in the order they were set. `QuizScreen` keeps them as a FIFO queue that `Tick` events drain.
- **Closures.** The answer handler's closure captures the index and score it saw at click time. `QuizScreen.Check` carries that pair.
- **Rounding.** `Math.round((score / total) * 100)` is modelled as exact rational round-half-up: `p` is the unique integer with `2*total*p <= 200*score + total < 2*total*(p+1)`.

The model follows the code, including these behaviours:

- Decoys are not de-duplicated. Two other words with the same translation can put that translation into the options twice, and always do when the pool has at most three entries (`QuestionSet.DecoysMayRepeat`). Options are distinct whenever no two words share a translation (`QuestionSet.DistinctTranslationsGiveDistinctOptions`).
- The decoy pool is every translation different from the correct one (`filter(w => w.translation !== correctAnswer)`). It is not "the other words": a word sharing the correct word's translation contributes nothing.
- After the last answer the index stays on the last question. The result shows only when the delayed step fires; the index never reaches the number of questions.
- For a signed-in player, `completeLesson` is awaited before the result is scheduled. A failing report therefore leaves the page on the last question. The model has no failure path (see Left out).
- The feedback banner and the option colours on the card always use the local comparison, even when the remote check decided the verdict (`QuizScreen.BannerIgnoresRemoteVerdict`).

## Model

| member | source | states |
|---|---|---|
| `Shuffling.Shuffle` | frontend/src/pages/QuizGame.tsx:32 | a random sort yields a rearrangement: same length and same multiset of elements as its input |
| `Shuffling.ShuffleKeepsMembers` | frontend/src/pages/QuizGame.tsx:35 | a value is among the shuffled options exactly when it was among the options before shuffling |
| `Shuffling.EveryArrangementReachable` | frontend/src/pages/QuizGame.tsx:32-35 | every rearrangement of the input is produced by some sequence of random draws, so no option order is ruled out |
| `QuestionSet.Translations` | frontend/src/pages/QuizGame.tsx:31 | mapping words to translations keeps length and position: entry i is word i's translation |
| `QuestionSet.OtherTranslations` | frontend/src/pages/QuizGame.tsx:29-31 | the decoy pool holds no copy of the correct translation and every other translation exactly as often as the list does |
| `QuestionSet.Decoys` | frontend/src/pages/QuizGame.tsx:29-33 | the decoys are min(3, pool size) entries drawn from the pool without replacement and never the correct answer |
| `QuestionSet.MakeQuestion` | frontend/src/pages/QuizGame.tsx:27-41 | a question asks for the word's text, has its translation as the answer, shows that answer exactly once, and shows 1 + min(3, pool size) options whose others come from the pool |
| `QuestionSet.MakeQuestionWellFormed` | frontend/src/pages/QuizGame.tsx:28-35 | every option other than the answer is the translation of some word of the list, and there are one to four options |
| `QuestionSet.BuildQuestions` | frontend/src/pages/QuizGame.tsx:25-42 | the quiz asks about the first min(5, N) words in list order; question i asks for word i with its translation as the answer, its options are well formed, it shows 1 + min(3, pool size) options, and apart from one copy of the answer every option is drawn from that word's decoy pool (respecting multiplicity) |
| `QuestionSet.EveryOptionOrderReachable` | frontend/src/pages/QuizGame.tsx:35 | with the decoys fixed, every order of the answer and decoys can be the order shown |
| `QuestionSet.DistinctTranslationsGiveDistinctOptions` | frontend/src/pages/QuizGame.tsx:29-35 | when no two words share a translation, no option is shown twice |
| `QuestionSet.DistinctCountsAtMostOne` | frontend/src/pages/QuizGame.tsx:31 | pairwise distinct translations occur at most once each among the list's translations |
| `QuestionSet.SmallPoolShownWhole` | frontend/src/pages/QuizGame.tsx:33-35 | a pool of at most three entries is offered whole: the options are exactly the answer plus the pool, as multisets |
| `QuestionSet.SmallPoolCounts` | frontend/src/pages/QuizGame.tsx:33-35 | with a small pool, each wrong translation is offered as many times as it occurs in the pool |
| `QuestionSet.DecoysMayRepeat` | frontend/src/pages/QuizGame.tsx:29-33 | decoys are not de-duplicated: Cat/Gato, Dog/Perro, Puppy/Perro shows "Perro" twice in the Cat question, for every draw |
| `QuizGame.Start` | frontend/src/pages/QuizGame.tsx:24-27 | a session exists exactly when the word list is non-empty; it starts on question 0 with score 0 and min(5, N) questions |
| `QuizGame.Evaluate` | frontend/src/pages/QuizGame.tsx:51-61 | a guest's answer is right iff it equals the question's answer and nothing is sent; a signed-in answer sends one check of (word, answer) and takes the reply as verdict |
| `QuizGame.Settle` | frontend/src/pages/QuizGame.tsx:63-83 | a right answer adds one point; before the last question the next question is scheduled and nothing is reported; on the last the result is scheduled and, iff signed in, the final score times ten is reported |
| `QuizGame.Fire` | frontend/src/pages/QuizGame.tsx:68-82 | the delayed step (the advance at lines 68-70 or the finish at lines 80-82) moves to the scheduled question, or shows the result without moving the index; questions, player and score are untouched |
| `QuizGame.Answer` | frontend/src/pages/QuizGame.tsx:48-84 | one answer plus its delayed step: score up by one iff judged right, next question or result on the last one, a guest sends nothing, a signed-in player sends the check and, on the last question, the report of the new score times ten |
| `QuizGame.StartConsistent` | frontend/src/pages/QuizGame.tsx:19-27 | a new session has a question on screen, no result, and no points |
| `QuizGame.AnswerKeepsConsistent` | frontend/src/pages/QuizGame.tsx:63-83 | answering one question at a time keeps the index on the list, the result only after the last question, and the score within the questions answered |
| `QuizGame.PlayToTheEnd` | frontend/src/pages/QuizGame.tsx:48-84 | answering every remaining question reaches the result on the last index; the score gains one point per reply that earns it; a guest sends nothing; a signed-in player sends one check per question in order, then one report of the final score times ten |
| `QuizGame.PlayKeepsConsistent` | frontend/src/pages/QuizGame.tsx:48-84 | one answer per question never gives more points than questions |
| `QuizGame.Render` | frontend/src/pages/QuizGame.tsx:86-118 | the empty state shows exactly when loading has finished with no words; the result card shows score out of the number of questions; a question shows with its 1-based number only while the quiz is not complete |
| `QuizGame.StartShowsFirstQuestion` | frontend/src/pages/QuizGame.tsx:143-144 | once words are in, the page asks question 1 of min(5, N) about the first word |
| `QuizGame.GuestAllRightTally` | frontend/src/pages/QuizGame.tsx:60-65 | a guest who picks each question's answer earns one point per question |
| `QuizGame.GuestPerfectRun` | frontend/src/pages/QuizGame.tsx:48-84 | a guest answering everything right ends on the result card with a full score and sends nothing |
| `QuizGame.GuestAnswersTranslations` | frontend/src/pages/QuizGame.tsx:24-84 | a guest who answers each question of a freshly started quiz with its word's translation ends on the result with one point per question, min(5, N) for any list length, and sends nothing |
| `QuizGame.GuestAnimalsScenario` | frontend/src/pages/QuizGame.tsx:24-84 | a guest quiz started from Dog/Perro, Cat/Gato, Bird/Pájaro and answered Perro, Gato, Pájaro gives 3 points and no remote calls, whatever the draws |
| `QuizGame.SignedInTwoQuestionScenario` | frontend/src/pages/QuizGame.tsx:53-78 | a signed-in player with one reply accepted and one rejected scores 1, sends two checks in order and reports 10 points |
| `QuizQuestion.Disabled` | frontend/src/components/QuizQuestion.tsx:76 | the buttons are disabled exactly when a check is pending or feedback shows |
| `QuizQuestion.Select` | frontend/src/components/QuizQuestion.tsx:27-32 | a click is passed on exactly when the buttons are enabled (no check pending, no feedback showing); an accepted click records the option and turns feedback on; an ignored click changes nothing |
| `QuizQuestion.Reset` | frontend/src/components/QuizQuestion.tsx:34-37 | the reset tick clears the selection and the feedback |
| `QuizQuestion.ResetReopens` | frontend/src/components/QuizQuestion.tsx:28-37 | after the reset tick, with no check pending, the next click is accepted again |
| `QuizQuestion.SelectAll` | frontend/src/components/QuizQuestion.tsx:27-32 | a run of clicks passes on no more answers than clicks, and every answer is an option that was clicked |
| `QuizQuestion.NoAnswerWhileFeedback` | frontend/src/components/QuizQuestion.tsx:28 | while feedback shows, no click gets through and the card does not change |
| `QuizQuestion.OneAnswerUntilReset` | frontend/src/components/QuizQuestion.tsx:27-38 | between resets a fresh card passes on at most one answer: the first click made while no check was pending |
| `QuizQuestion.IsCorrect` | frontend/src/components/QuizQuestion.tsx:40 | the card never reports a correct answer when nothing is selected |
| `QuizQuestion.OptionStyle` | frontend/src/components/QuizQuestion.tsx:58-70 | a coloured button needs feedback showing; the picked colours go only to the selected option, the shown-right colour only to the unselected correct answer; the selected option is always coloured while feedback shows |
| `QuizQuestion.FeedbackColours` | frontend/src/components/QuizQuestion.tsx:58-70 | without feedback every option is plain; with feedback an option is green exactly when it is the correct answer and red exactly when it is the selected wrong answer |
| `QuizResult.Percentage` | frontend/src/components/QuizResult.tsx:12 | the percentage is 100 * score / total rounded half up: the integer within half a point of the exact ratio |
| `QuizResult.PercentageUnique` | frontend/src/components/QuizResult.tsx:12 | that rounding condition has exactly one solution |
| `QuizResult.PercentageAtMostHundred` | frontend/src/components/QuizResult.tsx:12 | a score within the number of questions gives at most 100% |
| `QuizResult.PerfectScoreIsHundred` | frontend/src/components/QuizResult.tsx:12 | a full score gives exactly 100% |
| `QuizResult.HundredOnlyWhenPerfect` | frontend/src/components/QuizResult.tsx:12 | for fewer than 200 questions, 100% is shown exactly when the score is full |
| `QuizResult.PercentageMonotone` | frontend/src/components/QuizResult.tsx:12 | a higher score never shows a lower percentage |
| `QuizResult.Stars` | frontend/src/components/QuizResult.tsx:21-25 | one to three stars: three exactly at 100%, two exactly from 60% on but not 100%, one exactly below 60% |
| `QuizResult.MessageTier` | frontend/src/components/QuizResult.tsx:14-19 | the message is "Perfect" exactly at 100%, "Excellent" exactly from 80% on but not 100%, "Great job" exactly from 60% to below 80%, "Good try" exactly below 60% |
| `QuizResult.Message` | frontend/src/components/QuizResult.tsx:14-19 | each of the four message texts is shown exactly in its percentage band: 100; 80 to 99; 60 to 79; below 60 |
| `QuizResult.GradeOf` | frontend/src/components/QuizResult.tsx:12-27 | the result card's grade: its percentage is the rounded score/total percentage (`Percentage`), and its stars and message both derive from that percentage (`Stars`, `MessageTier`); at most 100% for a score within the total, one to three stars, three stars exactly with the "Perfect" message |
| `QuizResult.PerfectGrade` | frontend/src/components/QuizResult.tsx:12-27 | a full score gets 100%, three stars and the "Perfect" message |
| `QuizResult.GradeMonotone` | frontend/src/components/QuizResult.tsx:12-27 | a higher score never gets fewer stars or a lower message |
| `QuizResult.StarIcons` | frontend/src/components/QuizResult.tsx:43-49 | three star icons are drawn, the filled ones first, as many filled as stars earned |
| `QuizScreen.Init` | frontend/src/pages/QuizGame.tsx:19-22 | the page starts on question 0 with score 0 and the card (frontend/src/components/QuizQuestion.tsx:22-23) with nothing selected and no feedback; nothing is pending or sent |
| `QuizScreen.Resume` | frontend/src/pages/QuizGame.tsx:63-83 | after the verdict, a correct answer sets the score to the captured score plus one; before the last question the next is queued; on the last a guest's result is queued while a signed-in player's (captured score + verdict) times ten is reported; question and card are untouched |
| `QuizScreen.OnPick` | frontend/src/components/QuizQuestion.tsx:27-38 | a click is ignored unless a question is on screen and the buttons are enabled; an accepted one turns feedback on, queues the card reset, and either sends the check with the current index and score (signed in) or counts the point and queues the next step ahead of the reset (guest) |
| `QuizScreen.OnCheckReply` | frontend/src/pages/QuizGame.tsx:54-83 | the reply ends the pending check and is taken as the verdict: a true reply sets the score to the captured score plus one; before the last question the next is queued; on the last a guest's result is queued and a signed-in player's (captured score + verdict) times ten is reported; question and card stay; with no check pending nothing changes |
| `QuizScreen.OnReportReply` | frontend/src/pages/QuizGame.tsx:77-82 | the reply to the final report queues the result and changes nothing else |
| `QuizScreen.OnTick` | frontend/src/components/QuizQuestion.tsx:34-37 | the oldest timer fires: the card reset clears the card only; the page's step (frontend/src/pages/QuizGame.tsx:68-70, 80-82) moves the session on and ends the answer in flight |
| `QuizScreen.Handle` | frontend/src/pages/QuizGame.tsx:48-84 | no event changes the questions or the player, and the calls already sent stay a prefix of the calls afterwards |
| `QuizScreen.GuestEventsAgreeWithAnswer` | frontend/src/pages/QuizGame.tsx:58-70 | for a guest, from an idle page, a click and the two timers it sets (page step first, then card reset) give exactly the session and calls of `QuizGame.Answer` and leave nothing pending, under either button policy |
| `QuizScreen.SignedInEventsAgreeWithAnswer` | frontend/src/pages/QuizGame.tsx:53-70 | for a signed-in player before the last question, from an idle page, click, check reply, card reset and page step give exactly the session and calls of `QuizGame.Answer` with that reply, under either button policy |
| `QuizScreen.SignedInLastEventsAgreeWithAnswer` | frontend/src/pages/QuizGame.tsx:53-83 | for a signed-in player on the last question, click, check reply, card reset, report reply and the finish step give exactly the session and calls of `QuizGame.Answer`, the report included, under either button policy |
| `QuizScreen.AsWrittenDoubleSubmission` | frontend/src/pages/QuizGame.tsx:63-83 | as written, a signed-in player on a one-question quiz who clicks the answer again after the card resets scores 2 of 1 and reports 10 and then 20 points |
| `QuizScreen.AsWrittenReopensBeforeAdvance` | frontend/src/components/QuizQuestion.tsx:27-38 | as written, on any question of a signed-in player, once the check's reply and the card's reset are in, the same question is still on screen and accepts a second click that sends a second check |
| `QuizScreen.CorrectedAnswersOncePerQuestion` | frontend/src/pages/QuizGame.tsx:48-84 | with the buttons also kept disabled until the answer's delayed step fires, for any order of events: the score is at most the number of questions, at most one report is sent, a signed-in player's checks are for the first questions in order, one each (so at most one per question), a guest sends nothing, and the report equals the final score times ten |
| `QuizScreen.RunKeepsQuestions` | frontend/src/pages/QuizGame.tsx:44 | no event changes the question list or who is playing |
| `QuizScreen.CorrectedIgnoresSecondClick` | frontend/src/components/QuizQuestion.tsx:76 | with the corrected buttons, the double click scores 1 and reports 10 once |
| `QuizScreen.BannerIgnoresRemoteVerdict` | frontend/src/components/QuizQuestion.tsx:85-88 | a wrong option accepted by the remote check earns the point while the card still says the answer was wrong |

## Left out

- Layout, styling, images, icons, navigation buttons and the progress dots are not modelled. They carry no logic the quiz depends on.
- Fetching the words, the query cache and the sign-in hooks are not modelled. The word list, the loading flag and whether the player is signed in are inputs.
- Remote call failures are not modelled: a rejected `checkQuizAnswer` or `completeLesson` promise, or a mutation error. Only successful replies are modelled.
- The backend's own checking and scoring are not part of this model.
- Timer durations are not modelled. All delays are 1500 ms, so only their order matters, and they are a FIFO queue.
- A player leaving the page mid-quiz is not modelled, nor timers firing after it is gone.
- Shuffle fairness is not modelled. `sort` with a random comparator is not uniform, and the model proves only that every order is possible.
- Floating point is not modelled. `Math.round((score / totalQuestions) * 100)` uses exact rationals. With at most five questions the double computation rounds the same way, but that equivalence is not proved.
- QuizResult.HundredOnlyWhenPerfect: proved only for fewer than 200 questions. A quiz never has more than five, and with 200 or more a score one short of full rounds to 100%.
- QuizQuestion.IsCorrect: states only that a correct verdict needs a selection. Its meaning as a banner is stated by `QuizQuestion.FeedbackColours` and `QuizScreen.BannerIgnoresRemoteVerdict`.
- QuizQuestion.SelectAll: states only that answers come from clicks and are no more numerous. The exact answer sequence from a fresh card is `QuizQuestion.OneAnswerUntilReset`.
- QuizScreen.CorrectedAnswersOncePerQuestion: states upper bounds and the guest/report facts. It does not state that every question is eventually answered, which depends on the player clicking.
- In `QuizScreen`, the card's own `isChecking` flag is whether a check is pending. React batching and render timing between events are not modelled: each event is applied to the state left by the previous one.

## Findings

| source | as written | input that shows it | evidently intended | confidence | as-written member | corrected member |
|---|---|---|---|---|---|---|
| frontend/src/pages/QuizGame.tsx:63-83 with frontend/src/components/QuizQuestion.tsx:28-37 | The card re-enables its buttons when its own 1500 ms reset fires. The page only advances when its own 1500 ms timer fires, and for a signed-in player that timer is set only after the remote check returns, so it fires later. In that window the same question accepts another click, which is judged and scored again. | Signed-in player, one-question quiz: click the answer, check returns true, card reset fires, click the answer again, check returns true. Score 2 of 1 (200%), and `completeLesson` is sent for 10 and then 20 points. | One answer per question: the buttons stay disabled from an accepted click until the page has moved on | not executed; medium (timing dependent) | `QuizScreen.AsWrittenDoubleSubmission` | `QuizScreen.CorrectedAnswersOncePerQuestion` |

=== FILE: question_set.dfy ===
/**
  Building the questions of one quiz from a category's word list
  (the effect at the top of the quiz page). The first min(5, N) words, in list
  order, each become a question whose options are the word's translation plus
  up to three other translations drawn from the list. Both the decoy draw and
  the option order come from the injected draws of the Shuffle module.
 */
module QuestionSet {
  import opened Shuffling

  /** A vocabulary entry as the remote service returns it. */
  datatype Word = Word(text: string, translation: string, category: string)

  /** One multiple-choice question: the prompt word, its translation, and the options shown. */
  datatype Question = Question(word: string, correctAnswer: string, options: seq<string>)

  /** The random draws behind one question: the order of the decoy pool and the order of the options. */
  datatype Draws = Draws(decoyOrder: seq<nat>, optionOrder: seq<nat>)

  /** A quiz asks about at most this many words. */
  const MaxQuestions: nat := 5

  /** A question shows at most this many wrong options. */
  const MaxDecoys: nat := 3

  function Min(a: nat, b: nat): nat {
    if a <= b then a else b
  }

  /** The translations of `words`, position by position. */
  function Translations(words: seq<Word>): (r: seq<string>)
    ensures |r| == |words|
    ensures forall i :: 0 <= i < |words| ==> r[i] == words[i].translation
  {
    if |words| == 0 then [] else [words[0].translation] + Translations(words[1..])
  }

  /** The decoy pool for `correct`: every translation in the list that differs
      from it, in list order, repeats included. Each other translation occurs
      exactly as often as in the list; `correct` does not occur. */
  function OtherTranslations(words: seq<Word>, correct: string): (r: seq<string>)
    ensures forall x :: multiset(r)[x] == if x == correct then 0 else multiset(Translations(words))[x]
  {
    if |words| == 0 then []
    else
      assert Translations(words) == [words[0].translation] + Translations(words[1..]);
      (if words[0].translation != correct then [words[0].translation] else [])
        + OtherTranslations(words[1..], correct)
  }

  /** The first `n` elements of a sequence are a sub-multiset of it. */
  lemma PrefixIsSubMultiset<T>(s: seq<T>, n: nat)
    requires n <= |s|
    ensures multiset(s[..n]) <= multiset(s)
  {
    assert s == s[..n] + s[n..];
  }

  /** The decoys of a question: the first three entries of the shuffled pool,
      or the whole pool when it is smaller. */
  function Decoys(words: seq<Word>, correct: string, order: seq<nat>): (d: seq<string>)
    ensures |d| == Min(MaxDecoys, |OtherTranslations(words, correct)|)
    ensures multiset(d) <= multiset(OtherTranslations(words, correct))
    ensures multiset(d)[correct] == 0
  {
    var pool := Shuffle(OtherTranslations(words, correct), order);
    var n := Min(MaxDecoys, |pool|);
    PrefixIsSubMultiset(pool, n);
    pool[..n]
  }

  /** The question for word `w`: its translation is the correct answer, shown
      exactly once among the options; the other options are decoys taken from
      the pool without replacement. */
  function MakeQuestion(words: seq<Word>, w: Word, draws: Draws): (q: Question)
    ensures q.word == w.text && q.correctAnswer == w.translation
    ensures multiset(q.options)[w.translation] == 1
    ensures multiset(q.options) - multiset{w.translation} <= multiset(OtherTranslations(words, w.translation))
    ensures |q.options| == 1 + Min(MaxDecoys, |OtherTranslations(words, w.translation)|)
  {
    var d := Decoys(words, w.translation, draws.decoyOrder);
    assert multiset([w.translation] + d) == multiset{w.translation} + multiset(d);
    Question(w.text, w.translation, Shuffle([w.translation] + d, draws.optionOrder))
  }

  /** The draws for question `i`; a missing entry means "no reordering". */
  function DrawsFor(draws: seq<Draws>, i: nat): Draws {
    if i < |draws| then draws[i] else Draws([], [])
  }

  /** What every built question promises about its options: the correct answer
      exactly once, between one and four options, and every other option the
      translation of some word of the list. */
  ghost predicate WellFormedOptions(words: seq<Word>, q: Question) {
    && multiset(q.options)[q.correctAnswer] == 1
    && 1 <= |q.options| <= 1 + MaxDecoys
    && forall o :: o in q.options && o != q.correctAnswer ==>
         exists j :: 0 <= j < |words| && words[j].translation == o
  }

  /** Every entry of the decoy pool is the translation of some word of the list. */
  lemma PoolEntryIsTranslation(words: seq<Word>, correct: string, o: string)
    requires multiset(OtherTranslations(words, correct))[o] > 0
    ensures exists j :: 0 <= j < |words| && words[j].translation == o
  {
    assert o in Translations(words);
    var j :| 0 <= j < |words| && Translations(words)[j] == o;
  }

  /** Every question built for `w` is well formed with respect to the list. */
  lemma MakeQuestionWellFormed(words: seq<Word>, w: Word, draws: Draws)
    ensures WellFormedOptions(words, MakeQuestion(words, w, draws))
  {
    var q := MakeQuestion(words, w, draws);
    var m := multiset(q.options);
    var pool := multiset(OtherTranslations(words, w.translation));
    assert m - multiset{w.translation} <= pool;
    forall o | o in q.options && o != q.correctAnswer
      ensures exists j :: 0 <= j < |words| && words[j].translation == o
    {
      assert (m - multiset{w.translation})[o] == m[o] > 0;
      assert pool[o] >= (m - multiset{w.translation})[o];
      PoolEntryIsTranslation(words, w.translation, o);
    }
  }

  /** The question list of a quiz over `words`: the first min(5, |words|) words
      in list order, question i asking for words[i]. */
  function BuildQuestions(words: seq<Word>, draws: seq<Draws>): (qs: seq<Question>)
    ensures |qs| == Min(MaxQuestions, |words|)
    ensures forall i :: 0 <= i < |qs| ==>
      && qs[i].word == words[i].text
      && qs[i].correctAnswer == words[i].translation
      && WellFormedOptions(words, qs[i])
    ensures forall i :: 0 <= i < |qs| ==>
      && |qs[i].options| == 1 + Min(MaxDecoys, |OtherTranslations(words, words[i].translation)|)
      && multiset(qs[i].options) - multiset{words[i].translation} <= multiset(OtherTranslations(words, words[i].translation))
  {
    var n := Min(MaxQuestions, |words|);
    var qs := seq(n, i requires 0 <= i < n => MakeQuestion(words, words[i], DrawsFor(draws, i)));
    forall i | 0 <= i < n
      ensures qs[i].word == words[i].text && qs[i].correctAnswer == words[i].translation
      ensures WellFormedOptions(words, qs[i])
      ensures |qs[i].options| == 1 + Min(MaxDecoys, |OtherTranslations(words, words[i].translation)|)
      ensures multiset(qs[i].options) - multiset{words[i].translation} <= multiset(OtherTranslations(words, words[i].translation))
    {
      assert qs[i] == MakeQuestion(words, words[i], DrawsFor(draws, i));
      MakeQuestionWellFormed(words, words[i], DrawsFor(draws, i));
    }
    qs
  }

  /** With the decoys fixed, every order of the options is reachable by some draw. */
  lemma EveryOptionOrderReachable(words: seq<Word>, w: Word, decoyOrder: seq<nat>, shown: seq<string>)
      returns (optionOrder: seq<nat>)
    requires multiset(shown) == multiset([w.translation] + Decoys(words, w.translation, decoyOrder))
    ensures MakeQuestion(words, w, Draws(decoyOrder, optionOrder)).options == shown
  {
    var d := Decoys(words, w.translation, decoyOrder);
    optionOrder := EveryArrangementReachable([w.translation] + d, shown);
  }

  /** When no two words share a translation, no option is shown twice. */
  lemma {:induction false} DistinctTranslationsGiveDistinctOptions(words: seq<Word>, w: Word, draws: Draws)
    requires forall i, j :: 0 <= i < j < |words| ==> words[i].translation != words[j].translation
    ensures forall x :: multiset(MakeQuestion(words, w, draws).options)[x] <= 1
  {
    var m := multiset(MakeQuestion(words, w, draws).options);
    var pool := multiset(OtherTranslations(words, w.translation));
    assert m - multiset{w.translation} <= pool;
    forall x ensures m[x] <= 1 {
      if x != w.translation {
        assert (m - multiset{w.translation})[x] == m[x] <= pool[x];
        DistinctCountsAtMostOne(words, x);
      }
    }
  }

  /** Distinct translations occur at most once each. */
  lemma {:induction false} DistinctCountsAtMostOne(words: seq<Word>, x: string)
    requires forall i, j :: 0 <= i < j < |words| ==> words[i].translation != words[j].translation
    ensures multiset(Translations(words))[x] <= 1
    decreases |words|
  {
    if |words| > 0 {
      assert Translations(words) == [words[0].translation] + Translations(words[1..]);
      DistinctCountsAtMostOne(words[1..], x);
      if words[0].translation == x {
        forall j | 0 <= j < |words| - 1
          ensures Translations(words[1..])[j] != x
        {
          assert words[j + 1].translation != words[0].translation;
        }
        assert x !in Translations(words[1..]);
      }
    }
  }

  /** When the decoy pool has at most three entries, all of it is offered:
      the options are the correct answer plus the whole pool, repeats included. */
  lemma SmallPoolShownWhole(words: seq<Word>, w: Word, draws: Draws)
    requires |OtherTranslations(words, w.translation)| <= MaxDecoys
    ensures multiset(MakeQuestion(words, w, draws).options)
         == multiset{w.translation} + multiset(OtherTranslations(words, w.translation))
  {
    var others := OtherTranslations(words, w.translation);
    var pool := Shuffle(others, draws.decoyOrder);
    assert pool[..|pool|] == pool;
    var d := Decoys(words, w.translation, draws.decoyOrder);
    assert d == pool;
    assert multiset([w.translation] + d) == multiset{w.translation} + multiset(d);
  }

  /** With a pool of at most three entries, each wrong translation is offered
      as often as it occurs in the pool. */
  lemma SmallPoolCounts(words: seq<Word>, w: Word, draws: Draws, x: string)
    requires |OtherTranslations(words, w.translation)| <= MaxDecoys
    requires x != w.translation
    ensures multiset(MakeQuestion(words, w, draws).options)[x] == multiset(OtherTranslations(words, w.translation))[x]
  {
    SmallPoolShownWhole(words, w, draws);
  }

  /** Decoys are not de-duplicated: a translation shared by two other words is
      offered twice in the same question. */
  lemma DecoysMayRepeat(words: seq<Word>, draws: Draws)
    requires words == [Word("Cat", "Gato", "Animals"), Word("Dog", "Perro", "Animals"), Word("Puppy", "Perro", "Animals")]
    ensures multiset(MakeQuestion(words, words[0], draws).options)["Perro"] == 2
  {
    var others := OtherTranslations(words, "Gato");
    assert others == ["Perro", "Perro"] by {
      assert words[1..] == [words[1], words[2]];
      assert words[1..][1..] == [words[2]];
      assert words[1..][1..][1..] == [];
      assert OtherTranslations(words[1..][1..][1..], "Gato") == [];
      assert OtherTranslations(words[1..][1..], "Gato") == ["Perro"];
      assert OtherTranslations(words[1..], "Gato") == ["Perro", "Perro"];
    }
    assert multiset(others)["Perro"] == 2;
    SmallPoolCounts(words, words[0], draws, "Perro");
  }
}

=== FILE: quiz_game.dfy ===
/**
  One playthrough of a quiz (the quiz page): the session started from a
  category's word list, the evaluation of each answer (locally for guests,
  by the remote check for signed-in players), the score, the move to the next
  question or to the result, the final report of the score, and the choice of
  what the page shows.
 */
module QuizGame {
  import opened Wrappers
  import opened QuestionSet

  /** A request the session sends to the remote service. */
  datatype RemoteCall = CheckQuizAnswer(word: string, translation: string) | CompleteLesson(points: nat)

  /** Points reported per correct answer. */
  const PointsPerCorrect: nat := 10

  /** The quiz page's state: the questions, whether the player is signed in,
      the current question, the score, and whether the result is showing. */
  datatype Session = Session(questions: seq<Question>, authenticated: bool, index: nat, score: nat, complete: bool)

  /** The delayed step an answer schedules (1500 ms later): show question `index`, or show the result. */
  datatype Timer = AdvanceTo(index: nat) | Finish

  /** The session for a loaded word list; there is none for an empty list. */
  function Start(words: seq<Word>, authenticated: bool, draws: seq<Draws>): (r: Option<Session>)
    ensures r.None? <==> |words| == 0
    ensures r.Some? ==>
      && r.value.questions == BuildQuestions(words, draws)
      && |r.value.questions| == Min(MaxQuestions, |words|)
      && r.value.authenticated == authenticated
      && r.value.index == 0 && r.value.score == 0 && !r.value.complete
  {
    if |words| > 0 then Some(Session(BuildQuestions(words, draws), authenticated, 0, 0, false)) else None
  }

  /** A question is on screen and answerable. */
  predicate OnQuestion(s: Session) {
    !s.complete && s.index < |s.questions|
  }

  /** The verdict on an answer and the remote calls made to reach it. */
  datatype Evaluation = Evaluation(correct: bool, calls: seq<RemoteCall>)

  /** Judging `selected` for question `q`: a guest's answer is compared with the
      question's answer locally and nothing is sent; a signed-in player's answer
      is sent to the remote check, whose reply `remote` is the verdict. */
  function Evaluate(authenticated: bool, q: Question, selected: string, remote: bool): (e: Evaluation)
    ensures !authenticated ==> e.calls == [] && (e.correct <==> selected == q.correctAnswer)
    ensures authenticated ==> e.calls == [CheckQuizAnswer(q.word, selected)] && e.correct == remote
  {
    if authenticated then Evaluation(remote, [CheckQuizAnswer(q.word, selected)])
    else Evaluation(selected == q.correctAnswer, [])
  }

  /** What the rest of the answer handler decides once the verdict is known:
      the new score, the points reported (if any), and the delayed step. */
  datatype Settlement = Settlement(score: nat, report: Option<nat>, next: Timer)

  /** The answer handler after the verdict, for the question at `atIndex` of
      `total`, with `atScore` the score the handler saw. A correct answer adds
      one point. Before the last question it schedules the next one; on the last
      it schedules the result and, for a signed-in player only, reports the
      final score times ten, which equals the score it leaves behind. */
  function Settle(total: nat, authenticated: bool, atIndex: nat, atScore: nat, correct: bool): (st: Settlement)
    requires atIndex < total
    ensures st.score == atScore + (if correct then 1 else 0)
    ensures atIndex + 1 < total ==> st.next == AdvanceTo(atIndex + 1) && st.report.None?
    ensures atIndex + 1 == total ==> st.next == Finish
    ensures atIndex + 1 == total ==> (st.report.Some? <==> authenticated)
    ensures st.report.Some? ==> st.report.value == st.score * PointsPerCorrect
  {
    var score := if correct then atScore + 1 else atScore;
    if atIndex < total - 1 then
      Settlement(score, None, AdvanceTo(atIndex + 1))
    else
      var finalScore := if correct then atScore + 1 else atScore;
      Settlement(score, if authenticated then Some(finalScore * PointsPerCorrect) else None, Finish)
  }

  /** The delayed step firing. */
  function Fire(s: Session, t: Timer): (r: Session)
    ensures r.questions == s.questions && r.authenticated == s.authenticated && r.score == s.score
    ensures t.AdvanceTo? ==> r.index == t.index && r.complete == s.complete
    ensures t.Finish? ==> r.index == s.index && r.complete
  {
    match t
    case AdvanceTo(n) => s.(index := n)
    case Finish => s.(complete := true)
  }

  /** The remote report an answer's settlement sends, if any. */
  function ReportCalls(st: Settlement): seq<RemoteCall> {
    if st.report.Some? then [CompleteLesson(st.report.value)] else []
  }

  /** The result of answering one question and letting its delayed step fire. */
  datatype Answered = Answered(session: Session, correct: bool, calls: seq<RemoteCall>)

  /** Answering the current question with `selected`; `remote` is the remote
      check's reply, consulted only for a signed-in player. */
  function Answer(s: Session, selected: string, remote: bool): (r: Answered)
    requires OnQuestion(s)
    ensures r.session.questions == s.questions && r.session.authenticated == s.authenticated
    ensures r.session.score == s.score + (if r.correct then 1 else 0)
    ensures s.index + 1 < |s.questions| ==> r.session.index == s.index + 1 && !r.session.complete
    ensures s.index + 1 == |s.questions| ==> r.session.index == s.index && r.session.complete
    ensures !s.authenticated ==>
      r.calls == [] && (r.correct <==> selected == s.questions[s.index].correctAnswer)
    ensures s.authenticated ==>
      && r.correct == remote
      && r.calls == [CheckQuizAnswer(s.questions[s.index].word, selected)]
                    + (if r.session.complete then [CompleteLesson(r.session.score * PointsPerCorrect)] else [])
  {
    var e := Evaluate(s.authenticated, s.questions[s.index], selected, remote);
    var st := Settle(|s.questions|, s.authenticated, s.index, s.score, e.correct);
    Answered(Fire(s.(score := st.score), st.next), e.correct, e.calls + ReportCalls(st))
  }

  /** The session invariant: a question list, an index on it, the result shown
      only after the last question, and no more points than questions answered. */
  ghost predicate Consistent(s: Session) {
    && 0 < |s.questions|
    && s.index < |s.questions|
    && (s.complete ==> s.index == |s.questions| - 1)
    && s.score <= s.index + (if s.complete then 1 else 0)
  }

  /** A freshly started session is consistent. */
  lemma StartConsistent(words: seq<Word>, authenticated: bool, draws: seq<Draws>)
    requires |words| > 0
    ensures Consistent(Start(words, authenticated, draws).value)
  {
  }

  /** Answering keeps the session consistent. */
  lemma AnswerKeepsConsistent(s: Session, selected: string, remote: bool)
    requires Consistent(s) && !s.complete
    ensures Consistent(Answer(s, selected, remote).session)
  {
  }

  /** One answer the player gives: the option picked and the remote check's reply to it. */
  datatype Reply = Reply(selected: string, remote: bool)

  /** A session and the remote calls made while reaching it. */
  datatype Played = Played(session: Session, calls: seq<RemoteCall>)

  /** Plays `replies` in order, one per question, until the result shows;
      replies beyond that are never given. */
  function Play(s: Session, replies: seq<Reply>): (r: Played)
    ensures r.session.questions == s.questions && r.session.authenticated == s.authenticated
    decreases |replies|
  {
    if |replies| == 0 || !OnQuestion(s) then Played(s, [])
    else
      var step := Answer(s, replies[0].selected, replies[0].remote);
      var rest := Play(step.session, replies[1..]);
      Played(rest.session, step.calls + rest.calls)
  }

  /** Whether reply `r` earns the point for question `q`: the local comparison for
      a guest, the remote reply for a signed-in player. */
  function Earns(authenticated: bool, q: Question, r: Reply): bool {
    if authenticated then r.remote else r.selected == q.correctAnswer
  }

  /** Reference count of points: replies paired with questions in order. */
  function Tally(authenticated: bool, qs: seq<Question>, replies: seq<Reply>): nat
    decreases |qs|
  {
    if |qs| == 0 || |replies| == 0 then 0
    else (if Earns(authenticated, qs[0], replies[0]) then 1 else 0) + Tally(authenticated, qs[1..], replies[1..])
  }

  /** The answer checks a signed-in player's replies send, paired with the questions in order. */
  function Checks(qs: seq<Question>, replies: seq<Reply>): seq<RemoteCall>
    decreases |qs|
  {
    if |qs| == 0 || |replies| == 0 then []
    else [CheckQuizAnswer(qs[0].word, replies[0].selected)] + Checks(qs[1..], replies[1..])
  }

  /** Playing a consistent session with enough replies reaches the result on the
      last question; the score gains one point per reply that earns it; a guest
      sends nothing; a signed-in player sends one check per question and then a
      single report of the final score times ten. */
  lemma {:induction false} PlayToTheEnd(s: Session, replies: seq<Reply>)
    requires Consistent(s) && !s.complete
    requires |replies| >= |s.questions| - s.index
    ensures Play(s, replies).session.complete
    ensures Play(s, replies).session.index == |s.questions| - 1
    ensures Play(s, replies).session.score == s.score + Tally(s.authenticated, s.questions[s.index..], replies)
    ensures !s.authenticated ==> Play(s, replies).calls == []
    ensures s.authenticated ==>
      Play(s, replies).calls
        == Checks(s.questions[s.index..], replies) + [CompleteLesson(Play(s, replies).session.score * PointsPerCorrect)]
    decreases |s.questions| - s.index
  {
    var qs := s.questions;
    var auth := s.authenticated;
    var step := Answer(s, replies[0].selected, replies[0].remote);
    var rest := Play(step.session, replies[1..]);
    assert Play(s, replies) == Played(rest.session, step.calls + rest.calls);
    assert qs[s.index..][0] == qs[s.index];
    assert qs[s.index..][1..] == qs[s.index + 1..];
    assert step.correct == Earns(auth, qs[s.index], replies[0]);
    assert Tally(auth, qs[s.index..], replies)
        == (if step.correct then 1 else 0) + Tally(auth, qs[s.index + 1..], replies[1..]);
    assert Checks(qs[s.index..], replies)
        == [CheckQuizAnswer(qs[s.index].word, replies[0].selected)] + Checks(qs[s.index + 1..], replies[1..]);
    AnswerKeepsConsistent(s, replies[0].selected, replies[0].remote);
    if s.index + 1 == |qs| {
      assert rest == Played(step.session, []);
      assert Tally(auth, qs[s.index + 1..], replies[1..]) == 0;
      assert Checks(qs[s.index + 1..], replies[1..]) == [];
    } else {
      PlayToTheEnd(step.session, replies[1..]);
    }
  }

  /** A consistent session stays consistent however many replies are played,
      so the score never exceeds the number of questions answered. */
  lemma {:induction false} PlayKeepsConsistent(s: Session, replies: seq<Reply>)
    requires Consistent(s)
    ensures Consistent(Play(s, replies).session)
    ensures Play(s, replies).session.score <= |s.questions|
    decreases |replies|
  {
    if |replies| > 0 && OnQuestion(s) {
      var step := Answer(s, replies[0].selected, replies[0].remote);
      AnswerKeepsConsistent(s, replies[0].selected, replies[0].remote);
      PlayKeepsConsistent(step.session, replies[1..]);
    }
  }

  /** What the quiz page shows. */
  datatype View =
    | Spinner
    | NoWords
    | Result(score: nat, total: nat)
    | Asking(number: nat, of: nat, score: nat, question: Question)

  /** Loading is over and the category has words. */
  predicate Loaded(isLoading: bool, words: Option<seq<Word>>) {
    !isLoading && words.Some? && |words.value| > 0
  }

  /** The page for the loading flag, the fetched word list (None when there is
      none), and the session. While loading, and between the words arriving and
      the questions being built, a spinner shows; the empty state appears
      exactly when loading is over and no words came back; once loaded, a
      completed session shows the result card with its score out of its number
      of questions, and an unfinished one shows its current question. */
  function Render(isLoading: bool, words: Option<seq<Word>>, s: Session): (v: View)
    requires |s.questions| == 0 || s.index < |s.questions|
    ensures v.Spinner? <==> isLoading || (Loaded(isLoading, words) && !s.complete && |s.questions| == 0)
    ensures v.NoWords? <==> !isLoading && (words.None? || |words.value| == 0)
    ensures v.Result? <==> Loaded(isLoading, words) && s.complete
    ensures v.Result? ==> v == Result(s.score, |s.questions|)
    ensures v.Asking? <==> Loaded(isLoading, words) && !s.complete && |s.questions| > 0
    ensures v.Asking? ==> v == Asking(s.index + 1, |s.questions|, s.score, s.questions[s.index])
  {
    if isLoading then Spinner
    else if words.None? || |words.value| == 0 then NoWords
    else if s.complete then Result(s.score, |s.questions|)
    else if |s.questions| == 0 then Spinner
    else Asking(s.index + 1, |s.questions|, s.score, s.questions[s.index])
  }

  /** Once the words are in, a started quiz asks its first question, numbered 1
      of min(5, N), with the first word as its prompt. */
  lemma StartShowsFirstQuestion(words: seq<Word>, authenticated: bool, draws: seq<Draws>)
    requires |words| > 0
    ensures
      var s := Start(words, authenticated, draws).value;
      Render(false, Some(words), s) == Asking(1, Min(MaxQuestions, |words|), 0, s.questions[0])
      && s.questions[0].word == words[0].text
  {
  }

  /** A reference: every reply picks its question's correct answer. */
  ghost predicate AllRight(qs: seq<Question>, replies: seq<Reply>) {
    |replies| >= |qs| && forall i :: 0 <= i < |qs| ==> replies[i].selected == qs[i].correctAnswer
  }

  /** A guest who picks every correct answer scores one point per question. */
  lemma {:induction false} GuestAllRightTally(qs: seq<Question>, replies: seq<Reply>)
    requires AllRight(qs, replies)
    ensures Tally(false, qs, replies) == |qs|
    decreases |qs|
  {
    if |qs| > 0 {
      assert AllRight(qs[1..], replies[1..]) by {
        forall i | 0 <= i < |qs| - 1 ensures replies[1..][i].selected == qs[1..][i].correctAnswer {
          assert replies[i + 1].selected == qs[i + 1].correctAnswer;
        }
      }
      GuestAllRightTally(qs[1..], replies[1..]);
    }
  }

  /** A guest who answers every question right ends on the result card with a
      full score, and nothing is sent to the remote service. */
  lemma GuestPerfectRun(s: Session, replies: seq<Reply>, words: seq<Word>)
    requires Consistent(s) && s.index == 0 && s.score == 0 && !s.complete && !s.authenticated
    requires AllRight(s.questions, replies)
    requires |words| > 0
    ensures Play(s, replies).session.complete && Play(s, replies).session.index == |s.questions| - 1
    ensures Play(s, replies).session.score == |s.questions|
    ensures Play(s, replies).calls == []
    ensures Render(false, Some(words), Play(s, replies).session) == Result(|s.questions|, |s.questions|)
  {
    PlayToTheEnd(s, replies);
    assert s.questions[0..] == s.questions;
    GuestAllRightTally(s.questions, replies);
  }

  /** A guest who answers every question of a freshly started quiz with its
      word's translation ends on the result card with a point per question:
      min(5, N) of them, however long the list. */
  lemma GuestAnswersTranslations(words: seq<Word>, draws: seq<Draws>, replies: seq<Reply>)
    requires 0 < |words|
    requires |replies| >= Min(MaxQuestions, |words|)
    requires forall i :: 0 <= i < Min(MaxQuestions, |words|) ==> replies[i].selected == words[i].translation
    ensures
      var r := Play(Start(words, false, draws).value, replies);
      r.session.complete && r.session.score == Min(MaxQuestions, |words|) && r.calls == []
  {
    var s := Start(words, false, draws).value;
    StartConsistent(words, false, draws);
    assert AllRight(s.questions, replies);
    GuestPerfectRun(s, replies, words);
  }

  /** Guest scenario: a quiz started from the Dog, Cat and Bird words asks for
      Perro, Gato and Pájaro; answering those gives three points out of three,
      and nothing is sent. */
  lemma GuestAnimalsScenario(words: seq<Word>, draws: seq<Draws>, replies: seq<Reply>)
    requires words == [Word("Dog", "Perro", "Animals"), Word("Cat", "Gato", "Animals"), Word("Bird", "Pájaro", "Animals")]
    requires replies == [Reply("Perro", false), Reply("Gato", false), Reply("Pájaro", false)]
    ensures
      var r := Play(Start(words, false, draws).value, replies);
      r.session.complete && r.session.score == 3 && r.calls == []
  {
    GuestAnswersTranslations(words, draws, replies);
  }

  /** Signed-in scenario: the first of two answers judged right and the second
      wrong by the remote check; the report is 10 points, not 20. */
  lemma SignedInTwoQuestionScenario(s: Session, a: string, b: string)
    requires |s.questions| == 2 && s.authenticated && s.index == 0 && s.score == 0 && !s.complete
    ensures
      var r := Play(s, [Reply(a, true), Reply(b, false)]);
      r.session.score == 1
      && r.calls == [CheckQuizAnswer(s.questions[0].word, a), CheckQuizAnswer(s.questions[1].word, b), CompleteLesson(10)]
  {
    var qs := s.questions;
    var replies := [Reply(a, true), Reply(b, false)];
    PlayToTheEnd(s, replies);
    assert qs[0..] == qs;
    assert qs[1..][1..] == [];
    assert Tally(true, qs[1..], replies[1..]) == 0;
    assert Tally(true, qs, replies) == 1;
    assert Checks(qs[1..], replies[1..]) == [CheckQuizAnswer(qs[1].word, b)];
  }
}

=== FILE: quiz_question.dfy ===
/**
  The per-question input guard of the question card. Two flags, the selected
  option and whether feedback is showing, decide whether a click is passed on
  as an answer; a timer tick 1500 ms after an accepted click clears both.
  The same flags decide the correct/incorrect banner and the option colours.
 */
module QuizQuestion {
  import opened Wrappers
  import opened QuestionSet

  /** The card's local state. */
  datatype Guard = Guard(selected: Option<string>, showFeedback: bool)

  /** Nothing selected and no feedback: the state a card starts in and returns to. */
  const Fresh: Guard := Guard(None, false)

  /** The option buttons are disabled exactly while the answer is being checked
      remotely or feedback is showing. */
  predicate Disabled(g: Guard, isChecking: bool)
    ensures isChecking ==> Disabled(g, isChecking)
    ensures g.showFeedback ==> Disabled(g, isChecking)
    ensures !isChecking && !g.showFeedback ==> !Disabled(g, isChecking)
  {
    isChecking || g.showFeedback
  }

  /** The card's state after a click, and the answer passed on to the quiz, if any. */
  datatype Selection = Selection(guard: Guard, answered: Option<string>)

  /** A click on `option`. It is ignored exactly when the buttons are disabled;
      otherwise it records the option, turns feedback on and passes the option on. */
  function Select(g: Guard, isChecking: bool, option: string): (r: Selection)
    ensures r.answered.Some? <==> !Disabled(g, isChecking)
    ensures r.answered.None? ==> r.guard == g
    ensures r.answered.Some? ==> r.answered.value == option && r.guard == Guard(Some(option), true)
  {
    if isChecking || g.showFeedback then Selection(g, None)
    else Selection(Guard(Some(option), true), Some(option))
  }

  /** The reset tick, 1500 ms after an accepted click. */
  function Reset(g: Guard): (r: Guard)
    ensures r.selected.None? && !r.showFeedback
  {
    Fresh
  }

  /** After the reset tick the card accepts the next click again (unless a remote check is pending). */
  lemma ResetReopens(g: Guard, option: string)
    ensures Select(Reset(g), false, option).answered == Some(option)
  {
  }

  /** One click on the card: whether a check was pending at that moment, and the option clicked. */
  datatype Click = Click(isChecking: bool, option: string)

  /** The card's state after a run of clicks with no reset tick in between. */
  datatype Outcome = Outcome(guard: Guard, answers: seq<string>)

  /** Feeds `clicks` to the card in order and collects the answers passed on;
      every answer is an option that was clicked. */
  function SelectAll(g: Guard, clicks: seq<Click>): (r: Outcome)
    ensures |r.answers| <= |clicks|
    ensures forall a :: a in r.answers ==> exists i :: 0 <= i < |clicks| && clicks[i].option == a
    decreases |clicks|
  {
    if |clicks| == 0 then Outcome(g, [])
    else
      var first := Select(g, clicks[0].isChecking, clicks[0].option);
      var rest := SelectAll(first.guard, clicks[1..]);
      var mine := if first.answered.Some? then [first.answered.value] else [];
      assert forall a :: a in rest.answers ==> exists i :: 0 <= i < |clicks| && clicks[i].option == a by {
        forall a | a in rest.answers ensures exists i :: 0 <= i < |clicks| && clicks[i].option == a {
          var i :| 0 <= i < |clicks[1..]| && clicks[1..][i].option == a;
          assert clicks[i + 1].option == a;
        }
      }
      Outcome(rest.guard, mine + rest.answers)
  }

  /** While feedback is showing, no click gets through and nothing changes. */
  lemma {:induction false} NoAnswerWhileFeedback(g: Guard, clicks: seq<Click>)
    requires g.showFeedback
    ensures SelectAll(g, clicks) == Outcome(g, [])
    decreases |clicks|
  {
    if |clicks| > 0 {
      NoAnswerWhileFeedback(g, clicks[1..]);
    }
  }

  /** The first click made while no check was pending, if there is one. */
  function FirstAccepted(clicks: seq<Click>): Option<string> {
    if |clicks| == 0 then None
    else if !clicks[0].isChecking then Some(clicks[0].option)
    else FirstAccepted(clicks[1..])
  }

  /** From a fresh card, a run of clicks passes on at most one answer, and it is
      the first click made while no check was pending. */
  lemma {:induction false} OneAnswerUntilReset(clicks: seq<Click>)
    ensures SelectAll(Fresh, clicks).answers
         == if FirstAccepted(clicks).Some? then [FirstAccepted(clicks).value] else []
    decreases |clicks|
  {
    if |clicks| > 0 {
      if clicks[0].isChecking {
        OneAnswerUntilReset(clicks[1..]);
      } else {
        NoAnswerWhileFeedback(Guard(Some(clicks[0].option), true), clicks[1..]);
      }
    }
  }

  /** The banner's verdict: always the local comparison of the selection with the
      question's answer, whatever the remote check decided. */
  function IsCorrect(g: Guard, q: Question): (correct: bool)
    ensures correct ==> g.selected.Some?
  {
    g.selected == Some(q.correctAnswer)
  }

  /** How an option button is coloured. */
  datatype Style = Plain | PickedRight | PickedWrong | ShownRight {
    predicate Green() {
      PickedRight? || ShownRight?
    }
  }

  /** The colour of the button for `option`. */
  function OptionStyle(g: Guard, q: Question, option: string): (st: Style)
    ensures st != Plain ==> g.showFeedback
    ensures st == PickedRight || st == PickedWrong ==> g.selected == Some(option)
    ensures st == ShownRight ==> option == q.correctAnswer && g.selected != Some(option)
    ensures g.showFeedback && g.selected == Some(option) ==> st != Plain
  {
    if g.showFeedback && g.selected == Some(option) then
      (if IsCorrect(g, q) then PickedRight else PickedWrong)
    else if g.showFeedback && option == q.correctAnswer then
      ShownRight
    else
      Plain
  }

  /** While feedback shows, an option is green exactly when it is the correct
      answer and red exactly when it is the selected wrong answer; without
      feedback every option is plain. */
  lemma FeedbackColours(g: Guard, q: Question, option: string)
    ensures !g.showFeedback ==> OptionStyle(g, q, option) == Plain
    ensures g.showFeedback ==> (OptionStyle(g, q, option).Green() <==> option == q.correctAnswer)
    ensures g.showFeedback ==>
      (OptionStyle(g, q, option) == PickedWrong <==> g.selected == Some(option) && option != q.correctAnswer)
    ensures OptionStyle(g, q, option) == PickedRight ==> IsCorrect(g, q)
  {
  }
}

=== FILE: quiz_result.dfy ===
/**
  Grading a finished quiz (the result card): the score as a rounded
  percentage of the question count, a star count, and one of four
  encouragement messages.
 */
module QuizResult {

  /** Score as a percentage of `total`, rounded to the nearest whole number with
      halves rounded up (what Math.round does for non-negative values), in exact
      arithmetic: p is the integer with p - 1/2 <= 100 * score / total < p + 1/2. */
  function Percentage(score: nat, total: nat): (p: nat)
    requires total > 0
    ensures 2 * total * p <= 200 * score + total < 2 * total * (p + 1)
  {
    var p := (200 * score + total) / (2 * total);
    DivBounds(200 * score + total, 2 * total);
    p
  }

  /** The quotient of Euclidean division brackets the dividend. */
  lemma DivBounds(a: nat, b: nat)
    requires b > 0
    ensures b * (a / b) <= a < b * (a / b + 1)
  {
  }

  /** Multiplying by a non-negative factor keeps order. */
  lemma MulMono(a: nat, b: int, c: int)
    requires b <= c
    ensures a * b <= a * c
  {
  }

  /** The rounding condition pins the percentage down: it has exactly one solution. */
  lemma {:induction false} PercentageUnique(score: nat, total: nat, q: int)
    requires total > 0
    requires 2 * total * q <= 200 * score + total < 2 * total * (q + 1)
    ensures q == Percentage(score, total)
  {
    var p := Percentage(score, total);
    if q < p {
      MulMono(2 * total, q + 1, p);
      assert false;
    } else if q > p {
      MulMono(2 * total, p + 1, q);
      assert false;
    }
  }

  /** A score within the question count gives a percentage within 0..100. */
  lemma {:induction false} PercentageAtMostHundred(score: nat, total: nat)
    requires 0 < total
    ensures score <= total ==> Percentage(score, total) <= 100
  {
    var p := Percentage(score, total);
    if score <= total && p > 100 {
      MulMono(2 * total, 101, p);
      assert false;
    }
  }

  /** All questions right is exactly 100 percent. */
  lemma {:induction false} PerfectScoreIsHundred(total: nat)
    requires total > 0
    ensures Percentage(total, total) == 100
  {
    PercentageUnique(total, total, 100);
  }

  /** For quizzes shorter than 200 questions (a quiz has at most five), the
      percentage is 100 only for a perfect score: one miss already rounds below. */
  lemma {:induction false} HundredOnlyWhenPerfect(score: nat, total: nat)
    requires 0 < total < 200 && score <= total
    ensures Percentage(score, total) == 100 <==> score == total
  {
    if score < total {
      var p := Percentage(score, total);
      if p >= 100 {
        MulMono(2 * total, 100, p);
        assert false;
      }
    } else {
      PerfectScoreIsHundred(total);
    }
  }

  /** A higher score never gives a lower percentage. */
  lemma {:induction false} PercentageMonotone(s1: nat, s2: nat, total: nat)
    requires total > 0 && s1 <= s2
    ensures Percentage(s1, total) <= Percentage(s2, total)
  {
    var p1 := Percentage(s1, total);
    var p2 := Percentage(s2, total);
    if p1 > p2 {
      MulMono(2 * total, p2 + 1, p1);
      assert false;
    }
  }

  /** Stars awarded: three for 100 percent, two from 60 percent, one otherwise. */
  function Stars(p: nat): (n: nat)
    ensures 1 <= n <= 3
    ensures n == 3 <==> p == 100
    ensures n == 2 <==> 60 <= p && p != 100
    ensures n == 1 <==> p < 60
  {
    if p == 100 then 3
    else if p >= 60 then 2
    else 1
  }

  /** The four encouragement messages, best first. */
  datatype Tier = Perfect | Excellent | Great | GoodTry {

    /** The tier's position: GoodTry 0 up to Perfect 3. */
    function Rank(): nat {
      match this
      case GoodTry => 0
      case Great => 1
      case Excellent => 2
      case Perfect => 3
    }

    /** The text shown for the tier. */
    function Text(): string {
      match this
      case Perfect => "Perfect! You're a star! 🌟"
      case Excellent => "Excellent work! 🎉"
      case Great => "Great job! Keep it up! 👏"
      case GoodTry => "Good try! Practice makes perfect! 💪"
    }
  }

  /** The message tier: the first threshold met, checked as 100, then 80, then 60. */
  function MessageTier(p: nat): (t: Tier)
    ensures t == Perfect <==> p == 100
    ensures t == Excellent <==> 80 <= p && p != 100
    ensures t == Great <==> 60 <= p < 80
    ensures t == GoodTry <==> p < 60
  {
    if p == 100 then Perfect
    else if p >= 80 then Excellent
    else if p >= 60 then Great
    else GoodTry
  }

  /** The message under the trophy for a percentage of `p`. */
  function Message(p: nat): (m: string)
    ensures m == "Perfect! You're a star! 🌟" <==> p == 100
    ensures m == "Excellent work! 🎉" <==> 80 <= p && p != 100
    ensures m == "Great job! Keep it up! 👏" <==> 60 <= p < 80
    ensures m == "Good try! Practice makes perfect! 💪" <==> p < 60
  {
    MessageTier(p).Text()
  }

  /** What the result card shows besides the raw score. */
  datatype Grade = Grade(percentage: nat, stars: nat, tier: Tier)

  /** The grade for `score` correct answers out of `total` questions. */
  function GradeOf(score: nat, total: nat): (g: Grade)
    requires total > 0
    ensures score <= total ==> g.percentage <= 100
    ensures 1 <= g.stars <= 3
    ensures g.stars == 3 <==> g.tier == Perfect
    ensures g.percentage == Percentage(score, total)
    ensures g.stars == Stars(g.percentage) && g.tier == MessageTier(g.percentage)
  {
    PercentageAtMostHundred(score, total);
    var p := Percentage(score, total);
    Grade(p, Stars(p), MessageTier(p))
  }

  /** A perfect score earns 100 percent, three stars and the top message. */
  lemma PerfectGrade(total: nat)
    requires total > 0
    ensures GradeOf(total, total) == Grade(100, 3, Perfect)
  {
    PerfectScoreIsHundred(total);
  }

  /** For a fixed number of questions, more correct answers never earn fewer
      stars or a lower message. */
  lemma GradeMonotone(s1: nat, s2: nat, total: nat)
    requires 0 < total && s1 <= s2 <= total
    ensures GradeOf(s1, total).stars <= GradeOf(s2, total).stars
    ensures GradeOf(s1, total).tier.Rank() <= GradeOf(s2, total).tier.Rank()
  {
    PercentageMonotone(s1, s2, total);
    PercentageAtMostHundred(s2, total);
  }

  /** The three star icons, left to right: true where the icon is filled. */
  function StarIcons(stars: nat): (filled: seq<bool>)
    ensures |filled| == 3
    ensures forall i, j :: 0 <= i < j < 3 && filled[j] ==> filled[i]
    ensures stars <= 3 ==> multiset(filled)[true] == stars
  {
    var icons := seq(3, i => i < stars);
    assert icons == [0 < stars, 1 < stars, 2 < stars];
    icons
  }
}

=== FILE: quiz_screen.dfy ===
/**
  The quiz page and its question card together, driven by the events the
  browser delivers one at a time: a click on an option, the reply to a remote
  answer check, the reply to the final report, and the firing of a 1500 ms
  timer. All timers have the same delay, so they fire in the order they were
  set; `delays` is that queue. The answer handler keeps the index and score it
  saw when the option was clicked, as its closure does.

  Two policies for the card's buttons are modelled. AsWritten disables them
  while a check is pending or feedback shows, as the application does.
  Corrected also keeps them disabled from an accepted click until that
  answer's delayed step (next question or result) has fired.
 */
module QuizScreen {
  import opened Wrappers
  import opened QuestionSet
  import opened QuizGame
  import QuizQuestion

  /** A pending 1500 ms timer: the quiz page's delayed step, or the card's reset. */
  datatype Delay = Game(t: Timer) | ResetCard

  /** A remote answer check awaiting its reply, with the index and score the handler captured. */
  datatype Check = Check(selected: string, atIndex: nat, atScore: nat)

  /** Everything the page and the card hold between events. */
  datatype Screen = Screen(
    session: Session,
    card: QuizQuestion.Guard,
    checking: Option<Check>,
    reporting: nat,
    delays: seq<Delay>,
    answering: bool,
    calls: seq<RemoteCall>)

  /** What can happen next. */
  datatype Event = Pick(option: string) | CheckReply(correct: bool) | ReportReply | Tick

  /** Which rule disables the option buttons. */
  datatype Policy = AsWritten | Corrected

  /** The page once the questions are built: first question, no score, a fresh
      card, nothing pending. */
  function Init(qs: seq<Question>, authenticated: bool): (st: Screen)
    ensures st.session.questions == qs && st.session.authenticated == authenticated
    ensures st.session.index == 0 && st.session.score == 0 && !st.session.complete
    ensures st.card == QuizQuestion.Fresh && !st.answering
    ensures st.checking.None? && st.reporting == 0 && st.delays == [] && st.calls == []
  {
    Screen(Session(qs, authenticated, 0, 0, false), QuizQuestion.Fresh, None, 0, [], false, [])
  }

  /** The `isChecking` flag the card sees: the page passes whether the answer
      check is still pending (QuizGame.tsx:171). `AsWritten` keeps exactly that,
      so the buttons reopen once the reply arrives even though the next question
      is still only scheduled; `Corrected` also keeps them shut from the first
      accepted click until the page has moved on. */
  predicate CardBusy(st: Screen, policy: Policy) {
    st.checking.Some? || (policy == Corrected && st.answering)
  }

  /** The answer handler once the verdict for check `c` is known. A correct
      verdict sets the score to the captured score plus one (an incorrect one
      leaves the score alone). Before the last question the next one is queued;
      on the last, a guest's result is queued, while a signed-in player's final
      score (captured score plus the verdict) times ten is reported, and the
      result waits for the report's reply. Question and card stay as they are. */
  function Resume(st: Screen, c: Check, correct: bool): (r: Screen)
    requires c.atIndex < |st.session.questions|
    ensures r.session.questions == st.session.questions && r.session.authenticated == st.session.authenticated
    ensures r.session.index == st.session.index && r.session.complete == st.session.complete
    ensures r.card == st.card && r.checking == st.checking && r.answering == st.answering
    ensures r.session.score == if correct then c.atScore + 1 else st.session.score
    ensures c.atIndex + 1 < |st.session.questions| ==>
      r.delays == st.delays + [Game(AdvanceTo(c.atIndex + 1))] && r.calls == st.calls && r.reporting == st.reporting
    ensures c.atIndex + 1 == |st.session.questions| && !st.session.authenticated ==>
      r.delays == st.delays + [Game(Finish)] && r.calls == st.calls && r.reporting == st.reporting
    ensures c.atIndex + 1 == |st.session.questions| && st.session.authenticated ==>
      && r.delays == st.delays && r.reporting == st.reporting + 1
      && r.calls == st.calls + [CompleteLesson((c.atScore + (if correct then 1 else 0)) * PointsPerCorrect)]
  {
    var settled := Settle(|st.session.questions|, st.session.authenticated, c.atIndex, c.atScore, correct);
    var session := st.session.(score := if correct then settled.score else st.session.score);
    if settled.report.Some? then
      st.(session := session, reporting := st.reporting + 1,
          calls := st.calls + [CompleteLesson(settled.report.value)])
    else
      st.(session := session, delays := st.delays + [Game(settled.next)])
  }

  /** A click on `option` gets through: a question is on screen, the option is
      one of its buttons, and the buttons are enabled. */
  predicate Accepts(st: Screen, option: string, policy: Policy) {
    var s := st.session;
    OnQuestion(s) && option in s.questions[s.index].options
    && !QuizQuestion.Disabled(st.card, CardBusy(st, policy))
  }

  /** A click on `option` of the question on screen. An ignored click changes
      nothing. An accepted one turns the card's feedback on and queues its reset;
      a signed-in player's answer goes to the remote check with the index and
      score of that moment; a guest's is judged at once, its point counted and
      its next step queued ahead of the card's reset. */
  function OnPick(st: Screen, option: string, policy: Policy): (r: Screen)
    ensures !Accepts(st, option, policy) ==> r == st
    ensures Accepts(st, option, policy) ==>
      && r.session.questions == st.session.questions && r.session.authenticated == st.session.authenticated
      && r.session.index == st.session.index && r.session.complete == st.session.complete
      && r.card == QuizQuestion.Guard(Some(option), true) && r.answering
      && r.reporting == st.reporting
    ensures Accepts(st, option, policy) && st.session.authenticated ==>
      && r.checking == Some(Check(option, st.session.index, st.session.score))
      && r.session.score == st.session.score
      && r.calls == st.calls + [CheckQuizAnswer(st.session.questions[st.session.index].word, option)]
      && r.delays == st.delays + [ResetCard]
    ensures Accepts(st, option, policy) && !st.session.authenticated ==>
      && r.checking == st.checking && r.calls == st.calls
      && r.session.score == st.session.score
           + (if option == st.session.questions[st.session.index].correctAnswer then 1 else 0)
      && r.delays == st.delays
           + [Game(if st.session.index + 1 < |st.session.questions| then AdvanceTo(st.session.index + 1) else Finish), ResetCard]
  {
    var s := st.session;
    if !OnQuestion(s) || option !in s.questions[s.index].options then st
    else
      var picked := QuizQuestion.Select(st.card, CardBusy(st, policy), option);
      if picked.answered.None? then st
      else
        var q := s.questions[s.index];
        var c := Check(option, s.index, s.score);
        var e := Evaluate(s.authenticated, q, option, false);
        var st1 := st.(card := picked.guard, answering := true, calls := st.calls + e.calls);
        var st2 := if s.authenticated then st1.(checking := Some(c)) else Resume(st1, c, e.correct);
        st2.(delays := st2.delays + [ResetCard])
  }

  /** The reply to the pending answer check: the check is no longer pending and
      the handler resumes with the reply as its verdict, from the index and score
      it captured. Without a pending check nothing changes. */
  function OnCheckReply(st: Screen, correct: bool): (r: Screen)
    ensures st.checking.None? ==> r == st
    ensures r.checking.None?
    ensures r.session.questions == st.session.questions && r.session.authenticated == st.session.authenticated
    ensures r.session.index == st.session.index && r.session.complete == st.session.complete
    ensures r.card == st.card && r.answering == st.answering
    ensures st.checking.Some? && st.checking.value.atIndex < |st.session.questions| ==>
      var c := st.checking.value;
      && r.session.score == (if correct then c.atScore + 1 else st.session.score)
      && (c.atIndex + 1 < |st.session.questions| ==>
            r.delays == st.delays + [Game(AdvanceTo(c.atIndex + 1))] && r.calls == st.calls && r.reporting == st.reporting)
      && (c.atIndex + 1 == |st.session.questions| && !st.session.authenticated ==>
            r.delays == st.delays + [Game(Finish)] && r.calls == st.calls && r.reporting == st.reporting)
      && (c.atIndex + 1 == |st.session.questions| && st.session.authenticated ==>
            && r.delays == st.delays && r.reporting == st.reporting + 1
            && r.calls == st.calls + [CompleteLesson((c.atScore + (if correct then 1 else 0)) * PointsPerCorrect)])
  {
    match st.checking
    case None => st
    case Some(c) =>
      // A check is only ever sent for a question on screen.
      if c.atIndex < |st.session.questions| then Resume(st.(checking := None), c, correct) else st.(checking := None)
  }

  /** The reply to a final report queues the result; nothing else changes. */
  function OnReportReply(st: Screen): (r: Screen)
    ensures st.reporting == 0 ==> r == st
    ensures st.reporting > 0 ==>
      && r.reporting == st.reporting - 1 && r.delays == st.delays + [Game(Finish)]
      && r.session == st.session && r.card == st.card && r.checking == st.checking
      && r.calls == st.calls && r.answering == st.answering
  {
    if st.reporting == 0 then st
    else st.(reporting := st.reporting - 1, delays := st.delays + [Game(Finish)])
  }

  /** The oldest pending timer fires and leaves the queue: the card's reset
      clears the card; the page's delayed step moves on and ends the answer in
      flight. Without pending timers nothing changes. */
  function OnTick(st: Screen): (r: Screen)
    ensures |st.delays| == 0 ==> r == st
    ensures |st.delays| > 0 ==>
      && r.delays == st.delays[1..]
      && r.calls == st.calls && r.checking == st.checking && r.reporting == st.reporting
    ensures |st.delays| > 0 && st.delays[0] == ResetCard ==>
      r.card == QuizQuestion.Fresh && r.session == st.session && r.answering == st.answering
    ensures |st.delays| > 0 && st.delays[0].Game? ==>
      r.session == Fire(st.session, st.delays[0].t) && r.card == st.card && !r.answering
  {
    if |st.delays| == 0 then st
    else match st.delays[0]
      case ResetCard => st.(card := QuizQuestion.Reset(st.card), delays := st.delays[1..])
      case Game(t) => st.(session := Fire(st.session, t), answering := false, delays := st.delays[1..])
  }

  /** One event under `policy`. No event changes the questions or the player,
      and none takes back a remote call: the calls so far are a prefix of the
      calls after. */
  function Handle(st: Screen, e: Event, policy: Policy): (r: Screen)
    ensures r.session.questions == st.session.questions && r.session.authenticated == st.session.authenticated
    ensures st.calls <= r.calls
  {
    match e
    case Pick(option) => OnPick(st, option, policy)
    case CheckReply(correct) => OnCheckReply(st, correct)
    case ReportReply => OnReportReply(st)
    case Tick => OnTick(st)
  }

  /** A sequence of events, in order. */
  function RunEvents(st: Screen, events: seq<Event>, policy: Policy): Screen
    decreases |events|
  {
    if |events| == 0 then st else RunEvents(Handle(st, events[0], policy), events[1..], policy)
  }

  /** The points of every report sent, in order. */
  function Reports(calls: seq<RemoteCall>): seq<nat> {
    if |calls| == 0 then []
    else Reports(calls[..|calls| - 1])
         + (if calls[|calls| - 1].CompleteLesson? then [calls[|calls| - 1].points] else [])
  }

  /** The words of every answer check sent, in order. */
  function CheckedWords(calls: seq<RemoteCall>): seq<string> {
    if |calls| == 0 then []
    else CheckedWords(calls[..|calls| - 1])
         + (if calls[|calls| - 1].CheckQuizAnswer? then [calls[|calls| - 1].word] else [])
  }

  /** The prompt words of the questions, in order. */
  function QuestionWords(qs: seq<Question>): seq<string> {
    seq(|qs|, i requires 0 <= i < |qs| => qs[i].word)
  }

  /** The number of the page's delayed steps waiting in the timer queue. */
  function GameDelays(ds: seq<Delay>): nat {
    if |ds| == 0 then 0 else (if ds[0].Game? then 1 else 0) + GameDelays(ds[1..])
  }

  lemma {:induction false} GameDelaysAppend(ds: seq<Delay>, d: Delay)
    ensures GameDelays(ds + [d]) == GameDelays(ds) + (if d.Game? then 1 else 0)
    decreases |ds|
  {
    if |ds| > 0 {
      assert (ds + [d])[1..] == ds[1..] + [d];
      GameDelaysAppend(ds[1..], d);
    }
  }

  lemma {:induction false} NoGameDelays(ds: seq<Delay>)
    ensures GameDelays(ds) == 0 <==> forall k :: 0 <= k < |ds| ==> !ds[k].Game?
    decreases |ds|
  {
    if |ds| > 0 {
      NoGameDelays(ds[1..]);
      assert forall k :: 1 <= k < |ds| ==> ds[k] == ds[1..][k - 1];
    }
  }

  lemma AppendCall(cs: seq<RemoteCall>, c: RemoteCall)
    ensures Reports(cs + [c]) == Reports(cs) + (if c.CompleteLesson? then [c.points] else [])
    ensures CheckedWords(cs + [c]) == CheckedWords(cs) + (if c.CheckQuizAnswer? then [c.word] else [])
  {
    assert (cs + [c])[..|cs|] == cs;
  }

  /** The events of a signed-in player who clicks the right answer, gets the
      check's reply, waits for the card's reset timer, clicks the same answer
      again before the page's delayed step fires, and gets the second reply. */
  function DoubleClickEvents(answer: string): seq<Event> {
    [Pick(answer), CheckReply(true), Tick, Pick(answer), CheckReply(true)]
  }

  /** As written, the card accepts a second click on the same question once the
      check's reply is in and the card's reset timer has fired, because the
      page's delayed step has not fired yet. On a one-question quiz this leaves
      two points for one question, and the final report is sent twice, for 10
      and for 20 points. */
  lemma {:induction false} AsWrittenDoubleSubmission(q: Question)
    requires q.correctAnswer in q.options
    ensures
      var st := RunEvents(Init([q], true), DoubleClickEvents(q.correctAnswer), AsWritten);
      && st.session.score == 2 > |st.session.questions|
      && Reports(st.calls) == [10, 20]
  {
    var a := q.correctAnswer;
    var ev := DoubleClickEvents(a);
    var st0 := Init([q], true);
    var st1 := Handle(st0, ev[0], AsWritten);
    assert st1.checking == Some(Check(a, 0, 0)) && st1.delays == [ResetCard];
    assert st1.calls == [CheckQuizAnswer(q.word, a)];
    var st2 := Handle(st1, ev[1], AsWritten);
    assert st2.session.score == 1 && st2.checking.None?;
    assert st2.calls == [CheckQuizAnswer(q.word, a), CompleteLesson(10)];
    var st3 := Handle(st2, ev[2], AsWritten);
    assert st3.card == QuizQuestion.Fresh && !st3.session.complete;
    var st4 := Handle(st3, ev[3], AsWritten);
    assert st4.checking == Some(Check(a, 0, 1));
    var st5 := Handle(st4, ev[4], AsWritten);
    assert st5.session.score == 2;
    assert st5.calls == [CheckQuizAnswer(q.word, a), CompleteLesson(10), CheckQuizAnswer(q.word, a), CompleteLesson(20)];
    assert ev[5..] == [];
    RunFrom(st4, ev, 4, AsWritten);
    RunFrom(st3, ev, 3, AsWritten);
    RunFrom(st2, ev, 2, AsWritten);
    RunFrom(st1, ev, 1, AsWritten);
    RunFrom(st0, ev, 0, AsWritten);
    assert ev[0..] == ev;
    DoubleSubmissionReports(q.word, a);
  }

  /** The window in general: as written, on any question of a signed-in
      player, after a click, its check's reply and the card's reset, the page
      still shows the same question and a further click on any option is
      accepted and sends a second check for that question. */
  lemma {:induction false} AsWrittenReopensBeforeAdvance(st: Screen, a: string, b: string, verdict: bool)
    requires st.session.authenticated && OnQuestion(st.session)
    requires st.card == QuizQuestion.Fresh && st.checking.None? && st.reporting == 0 && st.delays == []
    requires a in st.session.questions[st.session.index].options
    requires b in st.session.questions[st.session.index].options
    ensures
      var i := st.session.index;
      var st3 := RunEvents(st, [Pick(a), CheckReply(verdict), Tick], AsWritten);
      && st3.session.index == i && !st3.session.complete
      && Handle(st3, Pick(b), AsWritten).checking == Some(Check(b, i, st3.session.score))
      && Handle(st3, Pick(b), AsWritten).calls == st3.calls + [CheckQuizAnswer(st.session.questions[i].word, b)]
  {
    var ev := [Pick(a), CheckReply(verdict), Tick];
    var st1 := Handle(st, ev[0], AsWritten);
    assert st1.delays == [ResetCard] && st1.checking.Some? && st1.session == st.session;
    var st2 := Handle(st1, ev[1], AsWritten);
    assert st2.delays[0] == ResetCard && st2.checking.None?;
    assert st2.session.index == st.session.index && !st2.session.complete;
    var st3 := Handle(st2, ev[2], AsWritten);
    assert st3.card == QuizQuestion.Fresh && st3.checking.None? && st3.session.index == st.session.index;
    assert ev[3..] == [];
    RunFrom(st2, ev, 2, AsWritten);
    RunFrom(st1, ev, 1, AsWritten);
    RunFrom(st, ev, 0, AsWritten);
    assert ev[0..] == ev;
  }

  /** Running the events from position k is one step, then the rest. */
  lemma RunFrom(st: Screen, ev: seq<Event>, k: nat, policy: Policy)
    requires k < |ev|
    ensures RunEvents(st, ev[k..], policy) == RunEvents(Handle(st, ev[k], policy), ev[k + 1..], policy)
  {
    assert ev[k..][1..] == ev[k + 1..];
  }

  lemma DoubleSubmissionReports(w: string, a: string)
    ensures Reports([CheckQuizAnswer(w, a), CompleteLesson(10), CheckQuizAnswer(w, a), CompleteLesson(20)]) == [10, 20]
  {
    var c0, c1, c2, c3 := CheckQuizAnswer(w, a), CompleteLesson(10), CheckQuizAnswer(w, a), CompleteLesson(20);
    AppendCall([], c0);
    assert [] + [c0] == [c0];
    AppendCall([c0], c1);
    assert [c0] + [c1] == [c0, c1];
    AppendCall([c0, c1], c2);
    assert [c0, c1] + [c2] == [c0, c1, c2];
    AppendCall([c0, c1, c2], c3);
    assert [c0, c1, c2] + [c3] == [c0, c1, c2, c3];
  }

  /** A queued delayed step of the page agrees with the session: it shows the
      next question, or the result after the last one, and the score is within
      the questions answered by then. */
  ghost predicate DelayFits(t: Timer, s: Session) {
    match t
    case AdvanceTo(n) => n == s.index + 1 && n < |s.questions| && s.score <= n
    case Finish => s.index == |s.questions| - 1 && s.score <= |s.questions|
  }

  /** The current question's answer has been judged and its delayed step is on its way. */
  predicate Judged(st: Screen) {
    (st.answering && st.checking.None?) || st.session.complete
  }

  /** The invariant of the corrected page. At most one thing carries the current
      answer forward (a pending check, a pending report, or a queued delayed
      step), and only while an answer is in flight; the score counts at most the
      questions judged; a guest sends nothing; a signed-in player has sent one
      check per question clicked, for those questions in order, and, once the last answer is judged, exactly one
      report, of the score times ten. */
  ghost predicate Inv(st: Screen) {
    var s := st.session;
    var n := |s.questions|;
    && 0 < n && s.index < n
    && (s.complete ==> s.index == n - 1 && !st.answering)
    && (!s.authenticated ==> st.calls == [] && st.checking.None? && st.reporting == 0)
    && (if st.checking.Some? then 1 else 0) + st.reporting + GameDelays(st.delays) == (if st.answering then 1 else 0)
    && (st.checking.Some? ==> st.checking.value.atIndex == s.index && st.checking.value.atScore == s.score)
    && (forall k :: 0 <= k < |st.delays| && st.delays[k].Game? ==> DelayFits(st.delays[k].t, s))
    && (st.reporting > 0 ==> s.index == n - 1)
    && s.score <= s.index + (if Judged(st) then 1 else 0)
    && Reports(st.calls) == (if s.authenticated && s.index == n - 1 && Judged(st) then [s.score * PointsPerCorrect] else [])
    && (s.authenticated ==>
          CheckedWords(st.calls) == QuestionWords(s.questions)[..s.index + (if st.answering || s.complete then 1 else 0)])
  }

  lemma InitInv(qs: seq<Question>, authenticated: bool)
    requires |qs| > 0
    ensures Inv(Init(qs, authenticated))
  {
  }

  /** One more question's word extends the prefix of the question words. */
  lemma QuestionWordsStep(qs: seq<Question>, i: nat)
    requires i < |qs|
    ensures QuestionWords(qs)[..i + 1] == QuestionWords(qs)[..i] + [qs[i].word]
  {
  }

  /** A click keeps the invariant of the corrected page. */
  lemma PickKeepsInv(st: Screen, option: string)
    requires Inv(st)
    ensures Inv(OnPick(st, option, Corrected))
  {
    if Accepts(st, option, Corrected) {
      if st.session.authenticated {
        SignedInPickKeepsInv(st, option);
      } else {
        GuestPickKeepsInv(st, option);
      }
    }
  }

  lemma SignedInPickKeepsInv(st: Screen, option: string)
    requires Inv(st) && Accepts(st, option, Corrected) && st.session.authenticated
    ensures Inv(OnPick(st, option, Corrected))
  {
    var s := st.session;
    var r := OnPick(st, option, Corrected);
    assert !st.answering && st.checking.None? && st.reporting == 0 && !s.complete;
    NoGameDelays(st.delays);
    GameDelaysAppend(st.delays, ResetCard);
    AppendCall(st.calls, CheckQuizAnswer(s.questions[s.index].word, option));
    QuestionWordsStep(s.questions, s.index);
    assert forall k :: 0 <= k < |r.delays| ==> !r.delays[k].Game?;
  }

  lemma GuestPickKeepsInv(st: Screen, option: string)
    requires Inv(st) && Accepts(st, option, Corrected) && !st.session.authenticated
    ensures Inv(OnPick(st, option, Corrected))
  {
    var s := st.session;
    var r := OnPick(st, option, Corrected);
    assert !st.answering && st.checking.None? && st.reporting == 0 && !s.complete;
    NoGameDelays(st.delays);
    var next := if s.index + 1 < |s.questions| then AdvanceTo(s.index + 1) else Finish;
    GameDelaysAppend(st.delays, Game(next));
    GameDelaysAppend(st.delays + [Game(next)], ResetCard);
    assert r.delays == st.delays + [Game(next)] + [ResetCard];
    forall k | 0 <= k < |r.delays| && r.delays[k].Game?
      ensures DelayFits(r.delays[k].t, r.session)
    {
      assert k == |st.delays|;
    }
  }

  /** The reply to a pending check keeps the invariant of the corrected page. */
  lemma CheckReplyKeepsInv(st: Screen, correct: bool)
    requires Inv(st)
    ensures Inv(OnCheckReply(st, correct))
  {
    if st.checking.Some? {
      var c := st.checking.value;
      var s := st.session;
      var settled := Settle(|s.questions|, s.authenticated, c.atIndex, c.atScore, correct);
      var st1 := st.(checking := None);
      assert GameDelays(st.delays) == 0 && st.reporting == 0;
      NoGameDelays(st.delays);
      if settled.report.Some? {
        AppendCall(st.calls, CompleteLesson(settled.report.value));
      } else {
        GameDelaysAppend(st.delays, Game(settled.next));
        var d := st.delays + [Game(settled.next)];
        var r := OnCheckReply(st, correct);
        assert r.delays == d;
        forall k | 0 <= k < |d| && d[k].Game?
          ensures DelayFits(d[k].t, r.session)
        {
          assert k == |st.delays|;
        }
      }
    }
  }

  /** The reply to the final report keeps the invariant of the corrected page. */
  lemma ReportReplyKeepsInv(st: Screen)
    requires Inv(st)
    ensures Inv(OnReportReply(st))
  {
    if st.reporting > 0 {
      assert GameDelays(st.delays) == 0;
      NoGameDelays(st.delays);
      GameDelaysAppend(st.delays, Game(Finish));
      var d := st.delays + [Game(Finish)];
      forall k | 0 <= k < |d| && d[k].Game?
        ensures DelayFits(d[k].t, st.session)
      {
        assert k == |st.delays|;
      }
    }
  }

  /** A timer firing keeps the invariant of the corrected page. */
  lemma TickKeepsInv(st: Screen)
    requires Inv(st)
    ensures Inv(OnTick(st))
  {
    if |st.delays| > 0 {
      var rest := st.delays[1..];
      assert forall k :: 0 <= k < |rest| ==> rest[k] == st.delays[k + 1];
      match st.delays[0]
      case ResetCard =>
        assert GameDelays(st.delays) == GameDelays(rest);
      case Game(t) =>
        assert DelayFits(t, st.session);
        assert GameDelays(rest) == 0;
        NoGameDelays(rest);
    }
  }

  /** Every event keeps the invariant of the corrected page. */
  lemma HandleKeepsInv(st: Screen, e: Event)
    requires Inv(st)
    ensures Inv(Handle(st, e, Corrected))
  {
    match e
    case Pick(option) => PickKeepsInv(st, option);
    case CheckReply(correct) => CheckReplyKeepsInv(st, correct);
    case ReportReply => ReportReplyKeepsInv(st);
    case Tick => TickKeepsInv(st);
  }

  lemma {:induction false} RunKeepsInv(st: Screen, events: seq<Event>)
    requires Inv(st)
    ensures Inv(RunEvents(st, events, Corrected))
    decreases |events|
  {
    if |events| > 0 {
      HandleKeepsInv(st, events[0]);
      RunKeepsInv(Handle(st, events[0], Corrected), events[1..]);
    }
  }

  /** With the corrected buttons, whatever the order of clicks, replies and
      timers: the score never exceeds the number of questions; a guest sends
      nothing; a signed-in player's checks are for the first questions in order,
      one each, so at most one per question, and the player sends at
      most one report, and once the result shows that report is the score
      times ten. */
  lemma CorrectedAnswersOncePerQuestion(qs: seq<Question>, authenticated: bool, events: seq<Event>)
    requires |qs| > 0
    ensures
      var st := RunEvents(Init(qs, authenticated), events, Corrected);
      && st.session.score <= |qs|
      && |Reports(st.calls)| <= 1
      && (!authenticated ==> st.calls == [])
      && (authenticated ==> CheckedWords(st.calls) <= QuestionWords(qs))
      && (authenticated && st.session.complete ==> Reports(st.calls) == [st.session.score * PointsPerCorrect])
  {
    InitInv(qs, authenticated);
    RunKeepsInv(Init(qs, authenticated), events);
    RunKeepsQuestions(Init(qs, authenticated), events, Corrected);
  }

  /** Events never change the question list or who is playing. */
  lemma {:induction false} RunKeepsQuestions(st: Screen, events: seq<Event>, policy: Policy)
    ensures RunEvents(st, events, policy).session.questions == st.session.questions
    ensures RunEvents(st, events, policy).session.authenticated == st.session.authenticated
    decreases |events|
  {
    if |events| > 0 {
      RunKeepsQuestions(Handle(st, events[0], policy), events[1..], policy);
    }
  }

  /** Nothing is in flight: a question is on screen, the card is fresh, and no
      check, report or timer is pending. */
  predicate Idle(st: Screen) {
    && OnQuestion(st.session)
    && st.card == QuizQuestion.Fresh && !st.answering
    && st.checking.None? && st.reporting == 0 && st.delays == []
  }

  /** The event-level page agrees with the one-step answer handler for a guest:
      a click and the two timers it sets (the page's step, then the card's
      reset) leave the session that QuizGame.Answer gives, send nothing, and
      leave nothing pending. */
  lemma GuestEventsAgreeWithAnswer(st: Screen, o: string, remote: bool, policy: Policy)
    requires Idle(st) && !st.session.authenticated
    requires o in st.session.questions[st.session.index].options
    ensures
      var r := RunEvents(st, [Pick(o), Tick, Tick], policy);
      && r.session == Answer(st.session, o, remote).session
      && r.calls == st.calls + Answer(st.session, o, remote).calls
      && r.card == QuizQuestion.Fresh && r.checking.None? && r.reporting == 0 && r.delays == []
  {
    var ev := [Pick(o), Tick, Tick];
    var st1 := Handle(st, ev[0], policy);
    var st2 := Handle(st1, ev[1], policy);
    var st3 := Handle(st2, ev[2], policy);
    assert ev[3..] == [];
    RunFrom(st2, ev, 2, policy);
    RunFrom(st1, ev, 1, policy);
    RunFrom(st, ev, 0, policy);
    assert ev[0..] == ev;
  }

  /** The same for a signed-in player before the last question: the click, the
      check's reply, the card's reset and the page's step leave the session that
      QuizGame.Answer gives with the same reply, and send the same calls. */
  lemma SignedInEventsAgreeWithAnswer(st: Screen, o: string, remote: bool, policy: Policy)
    requires Idle(st) && st.session.authenticated
    requires st.session.index + 1 < |st.session.questions|
    requires o in st.session.questions[st.session.index].options
    ensures
      var r := RunEvents(st, [Pick(o), CheckReply(remote), Tick, Tick], policy);
      && r.session == Answer(st.session, o, remote).session
      && r.calls == st.calls + Answer(st.session, o, remote).calls
      && r.card == QuizQuestion.Fresh && r.checking.None? && r.reporting == 0 && r.delays == []
  {
    var ev := [Pick(o), CheckReply(remote), Tick, Tick];
    var st1 := Handle(st, ev[0], policy);
    var st2 := Handle(st1, ev[1], policy);
    var st3 := Handle(st2, ev[2], policy);
    var st4 := Handle(st3, ev[3], policy);
    assert ev[4..] == [];
    RunFrom(st3, ev, 3, policy);
    RunFrom(st2, ev, 2, policy);
    RunFrom(st1, ev, 1, policy);
    RunFrom(st, ev, 0, policy);
    assert ev[0..] == ev;
  }

  /** The same for a signed-in player on the last question, where the result
      waits for the report's reply: click, check reply, card reset, report
      reply and the page's finish leave QuizGame.Answer's session and calls. */
  lemma SignedInLastEventsAgreeWithAnswer(st: Screen, o: string, remote: bool, policy: Policy)
    requires Idle(st) && st.session.authenticated
    requires st.session.index + 1 == |st.session.questions|
    requires o in st.session.questions[st.session.index].options
    ensures
      var r := RunEvents(st, [Pick(o), CheckReply(remote), Tick, ReportReply, Tick], policy);
      && r.session == Answer(st.session, o, remote).session
      && r.calls == st.calls + Answer(st.session, o, remote).calls
      && r.checking.None? && r.reporting == 0 && r.delays == []
  {
    var ev := [Pick(o), CheckReply(remote), Tick, ReportReply, Tick];
    var st1 := Handle(st, ev[0], policy);
    var st2 := Handle(st1, ev[1], policy);
    var st3 := Handle(st2, ev[2], policy);
    var st4 := Handle(st3, ev[3], policy);
    var st5 := Handle(st4, ev[4], policy);
    assert ev[5..] == [];
    RunFrom(st4, ev, 4, policy);
    RunFrom(st3, ev, 3, policy);
    RunFrom(st2, ev, 2, policy);
    RunFrom(st1, ev, 1, policy);
    RunFrom(st, ev, 0, policy);
    assert ev[0..] == ev;
  }

  /** Running two event sequences one after the other is running their concatenation. */
  lemma {:induction false} RunAppend(st: Screen, e1: seq<Event>, e2: seq<Event>, policy: Policy)
    ensures RunEvents(st, e1 + e2, policy) == RunEvents(RunEvents(st, e1, policy), e2, policy)
    decreases |e1|
  {
    if |e1| == 0 {
      assert e1 + e2 == e2;
    } else {
      assert (e1 + e2)[0] == e1[0];
      assert (e1 + e2)[1..] == e1[1..] + e2;
      RunAppend(Handle(st, e1[0], policy), e1[1..], e2, policy);
    }
  }

  /** With the corrected buttons, a signed-in one-question quiz whose answer is
      judged right and whose card has reset is still answering: one point, one
      check, one report of 10. */
  lemma CorrectedAfterFirstAnswer(q: Question)
    requires q.correctAnswer in q.options
    ensures
      var st := RunEvents(Init([q], true), [Pick(q.correctAnswer), CheckReply(true), Tick], Corrected);
      && st.answering && st.checking.None? && st.session.score == 1
      && st.calls == [CheckQuizAnswer(q.word, q.correctAnswer), CompleteLesson(10)]
  {
    var a := q.correctAnswer;
    var ev := [Pick(a), CheckReply(true), Tick];
    var st0 := Init([q], true);
    var st1 := Handle(st0, ev[0], Corrected);
    assert st1.checking == Some(Check(a, 0, 0)) && st1.answering;
    assert st1.calls == [CheckQuizAnswer(q.word, a)];
    var st2 := Handle(st1, ev[1], Corrected);
    assert st2.session.score == 1 && st2.checking.None? && st2.answering;
    assert st2.calls == [CheckQuizAnswer(q.word, a), CompleteLesson(10)];
    var st3 := Handle(st2, ev[2], Corrected);
    assert ev[3..] == [];
    RunFrom(st2, ev, 2, Corrected);
    RunFrom(st1, ev, 1, Corrected);
    RunFrom(st0, ev, 0, Corrected);
    assert ev[0..] == ev;
  }

  /** With the corrected buttons, while an answer is in flight and no check is
      pending, a click and a stray check reply change nothing. */
  lemma CorrectedBusyIgnoresClickAndReply(st: Screen, a: string, verdict: bool)
    requires st.answering && st.checking.None?
    ensures RunEvents(st, [Pick(a), CheckReply(verdict)], Corrected) == st
  {
    var ev := [Pick(a), CheckReply(verdict)];
    assert Handle(st, ev[0], Corrected) == st;
    assert Handle(st, ev[1], Corrected) == st;
    assert ev[2..] == [];
    RunFrom(st, ev, 1, Corrected);
    RunFrom(st, ev, 0, Corrected);
    assert ev[0..] == ev;
  }

  /** The same events with the corrected buttons: the second click is ignored,
      its would-be reply changes nothing, and the quiz keeps one point and one
      report of 10. */
  lemma {:induction false} CorrectedIgnoresSecondClick(q: Question)
    requires q.correctAnswer in q.options
    ensures
      var st := RunEvents(Init([q], true), DoubleClickEvents(q.correctAnswer), Corrected);
      && st.session.score == 1
      && Reports(st.calls) == [10]
  {
    var a := q.correctAnswer;
    var first := [Pick(a), CheckReply(true), Tick];
    var second := [Pick(a), CheckReply(true)];
    assert DoubleClickEvents(a) == first + second;
    RunAppend(Init([q], true), first, second, Corrected);
    var st3 := RunEvents(Init([q], true), first, Corrected);
    CorrectedAfterFirstAnswer(q);
    CorrectedBusyIgnoresClickAndReply(st3, a, true);
    AppendCall([], CheckQuizAnswer(q.word, a));
    assert [] + [CheckQuizAnswer(q.word, a)] == [CheckQuizAnswer(q.word, a)];
    AppendCall([CheckQuizAnswer(q.word, a)], CompleteLesson(10));
  }

  /** The card's banner is the local comparison even for a signed-in player: a
      wrong option that the remote check accepts earns the point while the card
      says the answer was wrong. */
  lemma {:induction false} BannerIgnoresRemoteVerdict(q: Question, wrong: string, policy: Policy)
    requires wrong in q.options && wrong != q.correctAnswer
    ensures
      var st := RunEvents(Init([q], true), [Pick(wrong), CheckReply(true)], policy);
      && st.session.score == 1
      && st.card.showFeedback
      && !QuizQuestion.IsCorrect(st.card, q)
  {
    var ev := [Pick(wrong), CheckReply(true)];
    var st0 := Init([q], true);
    var st1 := Handle(st0, ev[0], policy);
    assert st1.card == QuizQuestion.Guard(Some(wrong), true) && st1.checking == Some(Check(wrong, 0, 0));
    var st2 := Handle(st1, ev[1], policy);
    assert st2.session.score == 1 && st2.card == st1.card;
    assert ev[2..] == [];
    RunFrom(st1, ev, 1, policy);
    RunFrom(st0, ev, 0, policy);
    assert ev[0..] == ev;
  }
}

=== FILE: shuffle.dfy ===
/**
  The random reordering used when a question is built. The application sorts
  with a comparator that returns a random sign; whatever order that produces,
  it is some rearrangement of the input. Here the random source is injected:
  a sequence of draws, where draw i chooses which of the elements not yet placed
  goes to position i. Every draw sequence yields a rearrangement, and every
  rearrangement is produced by some draw sequence.
 */
module Shuffling {

  /** `s` without its element at position `k`. */
  function RemoveAt<T>(s: seq<T>, k: nat): (r: seq<T>)
    requires k < |s|
    ensures |r| == |s| - 1
    ensures multiset(r) + multiset{s[k]} == multiset(s)
  {
    assert s == s[..k] + [s[k]] + s[k+1..];
    s[..k] + s[k+1..]
  }

  /** The position chosen by the first draw among `n` remaining elements (the first one when draws run out). */
  function FirstPick(picks: seq<nat>, n: nat): (k: nat)
    requires n > 0
    ensures k < n
  {
    (if |picks| == 0 then 0 else picks[0]) % n
  }

  /** The draws left after the first one. */
  function RestPicks(picks: seq<nat>): seq<nat> {
    if |picks| == 0 then [] else picks[1..]
  }

  /** The arrangement of `s` that the draws `picks` select. */
  function Shuffle<T>(s: seq<T>, picks: seq<nat>): (r: seq<T>)
    ensures multiset(r) == multiset(s)
    ensures |r| == |s|
    decreases |s|
  {
    if |s| == 0 then []
    else
      var k := FirstPick(picks, |s|);
      [s[k]] + Shuffle(RemoveAt(s, k), RestPicks(picks))
  }

  /** Membership is unchanged by shuffling. */
  lemma ShuffleKeepsMembers<T>(s: seq<T>, picks: seq<nat>, x: T)
    ensures x in Shuffle(s, picks) <==> x in s
  {
    assert x in multiset(Shuffle(s, picks)) <==> x in multiset(s);
  }

  /** A draw below the number of remaining elements selects exactly that position. */
  lemma SmallRemainder(k: nat, n: nat)
    requires k < n
    ensures k % n == k
  {
  }

  /** Taking the same element away from two equal multisets leaves equal multisets. */
  lemma CancelOne<T>(a: multiset<T>, b: multiset<T>, x: T)
    requires multiset{x} + a == b + multiset{x}
    ensures a == b
  {
    forall y ensures a[y] == b[y] {
      assert (multiset{x} + a)[y] == (b + multiset{x})[y];
    }
  }

  /** Drawing position k first places s[k] and shuffles the rest with the remaining draws. */
  lemma ShuffleFirst<T>(s: seq<T>, k: nat, picks: seq<nat>)
    requires k < |s|
    ensures Shuffle(s, [k] + picks) == [s[k]] + Shuffle(RemoveAt(s, k), picks)
  {
    SmallRemainder(k, |s|);
    assert FirstPick([k] + picks, |s|) == k;
    assert RestPicks([k] + picks) == picks;
  }

  /** If t rearranges a non-empty s, some position k of s holds t's first
      element, and the rest of t rearranges s without position k. */
  lemma MatchFirst<T>(s: seq<T>, t: seq<T>) returns (k: nat)
    requires multiset(t) == multiset(s) && |s| > 0
    ensures k < |s| && 0 < |t| && s[k] == t[0]
    ensures multiset(t[1..]) == multiset(RemoveAt(s, k))
  {
    assert |t| == |multiset(t)| == |multiset(s)| == |s|;
    assert t[0] in multiset(s);
    k :| 0 <= k < |s| && s[k] == t[0];
    assert t == [t[0]] + t[1..];
    assert multiset(t) == multiset{t[0]} + multiset(t[1..]);
    CancelOne(multiset(t[1..]), multiset(RemoveAt(s, k)), t[0]);
  }

  /** Every rearrangement of `s` is the outcome of some draw sequence, so the
      model leaves no order the application could produce out of reach. */
  lemma {:induction false} EveryArrangementReachable<T>(s: seq<T>, t: seq<T>) returns (picks: seq<nat>)
    requires multiset(t) == multiset(s)
    ensures Shuffle(s, picks) == t
    decreases |s|
  {
    if |s| == 0 {
      assert |t| == |multiset(t)| == 0;
      picks := [];
    } else {
      var k := MatchFirst(s, t);
      var rest := EveryArrangementReachable(RemoveAt(s, k), t[1..]);
      picks := [k] + rest;
      ShuffleFirst(s, k, rest);
      assert t == [t[0]] + t[1..];
    }
  }
}

=== FILE: wrappers.dfy ===
/** The optional value the quiz uses for "no selection yet" and "nothing reported". */
module Wrappers {

  datatype Option<+T> = None | Some(value: T)
}
